=== FILE: README.md ===
# ColorDescriptors in Dafny

A model of the colour-description core of `ColorDescriptors.py`. That module describes LED colours and gradients and turns them into short descriptor words and back.

- **ColorSolid** holds one colour in two representations at once. These are the RGB[W] channels and HSI (hue in degrees, saturation, intensity). The colour is tagged with the representation that last drove it (`_inputType`: rgb, rgbw or hsi). Its word is either `'c'` followed by two hex digits each for R, G, B and an optional W, or `'h'` followed by three hex digits each for H, S·255, I·255 and an optional trailing `'w'`.
- **The four converters** (`rgb2hsi`, `rgbw2hsi`, `hsi2rgb`, `hsi2rgbw`) keep each representation in step with the other.
- **`lerp`, `linearInterpHsi` and `linearInterpRgbw`** expand a list of node colours into a gradient. They emit `steps + 1` colours per consecutive pair of nodes and end with a copy of the last node.
- **ColorGradient** holds the nodes, the step count, the interpolation mode and the generated gradient. Its word is the node words joined by commas, then `';'`, then the step count.

Modules, one per component, all pure and immutable:

| file | module | contents |
|---|---|---|
| basics.dfy | `Basics` | `Option`, `Outcome` (raise or return), Python's half-to-even `round`, Python's float `% 360`, the converters' clamp |
| text.dfy | `Text` | `int(s, 16)`, `format(n, "0<w>x")`, decimal numerals, ASCII `str.lower`, `split`, `split(sep, 1)`, `join`, parenthesis removal |
| convert.dfy | `Convert` | the four converters, with `sqrt`, `acos`, `atan` and the `cos` sector ratio supplied by the caller in a `Math` record |
| colorsolid.dfy | `ColorSolid` | the colour record, the constructor, `copy`, `toString`, `parse`, the setters and `__eq__` |
| interp.dfy | `Interp` | `lerp` and both interpolators, as list functions and as the source's nested loops |
| gradient.dfy | `ColorGradient` | the gradient record, its setters, `generate`, `toString` and `parse` |

Objects become values and each setter returns the updated value. A Python exception becomes `Raises`. A `print` followed by an early return becomes `None` or an unchanged value. The transcendental functions are parameters (`Math`), so every property here holds whatever they compute.

Two consequences of the code worth knowing:

- `parse` checks the length first (10 for `'h'`, 11 for `'h…w'`), so the 9-character word `h000ff0ff` gives None.
- `round(127.5)` is 128, so the one-step RGBW midpoint between yellow (`cffff0000`) and black (`c00000000`) is `c80800000` (`Interp.RgbwMidpointRoundsToEven`).

## Model

| member | source | states |
|---|---|---|
| Basics.Round | ColorDescriptors.py:96-105 | `round` returns an integer within one half of its argument; on an exact half it returns the even neighbour |
| Basics.FloorMod360 | ColorDescriptors.py:101 | `hue % 360` lies in [0, 360), differs from the hue by whole turns, and leaves a hue already in [0, 360) alone |
| Basics.FloorMod360Periodic | ColorDescriptors.py:357 | adding a full turn does not change the wrapped hue |
| Basics.Clamp | ColorDescriptors.py:381-384 | the clamp idiom gives the point of [0, hi] nearest its argument |
| Text.FormatHexRoundTrip | ColorDescriptors.py:96-97 | a value that fits in w digits, written with `format(n, "0wx")`, is exactly w lower-case hex digits, and `int(_, 16)` reads the value back |
| Text.HexValueRoundTrip | ColorDescriptors.py:223 | w lower-case hex digits read with `int(_, 16)` and written back in w digits give the same digits |
| Text.DecimalRoundTrip | ColorDescriptors.py:455 | `int(str(n))` is n for every step count n |
| Text.SplitJoin | ColorDescriptors.py:478 | splitting a comma join gives back the parts, when no part holds a comma |
| Text.SplitOnce | ColorDescriptors.py:477 | `split(";", 1)` unpacks to two parts exactly when the text holds a `';'`; the text is the first part, `';'` and the second, and the first part has no `';'` |
| Text.RemoveParens | ColorDescriptors.py:477 | after the two `replace` calls no parenthesis is left, and text without parentheses is unchanged |
| Text.RemoveParensConcat | ColorDescriptors.py:477 | removal distributes over concatenation, so the other characters are kept in order |
| Text.Unparenthesise | ColorDescriptors.py:477 | wrapping text in `(` … `)` leaves the same text after removal |
| Convert.RgbToHsi | ColorDescriptors.py:319-352 | the returned intensity is the sum of the channels over 255 (the earlier mean is overwritten); a grey has hue 0 and saturation 0 |
| Convert.RgbToHsiRanges | ColorDescriptors.py:319-352 | on 0..255 channels the saturation lies in [0, 1] and is 0 exactly for greys; the intensity lies in [0, 3] |
| Convert.RgbwToHsi | ColorDescriptors.py:249-316 | with white 0 or missing it is `rgb2hsi`. Otherwise intensity is the total over 255; with some channel dark the saturation is the coloured share; with two or three channels dark the hue is fixed at 0/240/0/120; with exactly one dark it is the atan hue, which is left open because `atan` is a parameter. With all channels lit the saturation is `rgb2hsi`'s scaled by (255 − w)/255 |
| Convert.RgbwToHsiLitHue | ColorDescriptors.py:299-306 | with white present and every channel lit the hue is `rgb2hsi`'s, except for a grey, where `rgb2hsi` returns 0 but here the acos hue is kept |
| Convert.RgbwToHsiRanges | ColorDescriptors.py:260-316 | on 0..255 inputs the saturation lies in [0, 1] and the intensity in [0, 4] |
| Convert.Sector | ColorDescriptors.py:398-407 | the third of the wheel is chosen by the wrapped hue: below 120, below 240, or the rest |
| Convert.RadianThirds | ColorDescriptors.py:398-407 | the radian tests `h < 2/3 pi` and `h < 4/3 pi` on the wrapped hue are the degree tests 120 and 240 |
| Convert.HsiToRgb | ColorDescriptors.py:390-419 | every returned channel lies in [0, 255] |
| Convert.HsiToRgbw | ColorDescriptors.py:355-387 | every returned channel and the white lie in [0, 255] |
| Convert.HsiToRgbPeriodic | ColorDescriptors.py:392 | `hsi2rgb` sees the hue only modulo a whole turn |
| Convert.HsiToRgbwPeriodic | ColorDescriptors.py:357 | `hsi2rgbw` sees the hue only modulo a whole turn |
| Convert.HsiToRgbClampsInputs | ColorDescriptors.py:395-397 | `hsi2rgb` depends on s and i only through the clamps to [0, 1] and [0, 3] |
| Convert.HsiToRgbwClampsInputs | ColorDescriptors.py:360-362 | `hsi2rgbw` depends on s and i only through the clamps to [0, 1] and [0, 4] |
| Convert.HsiToRgbUnsaturated | ColorDescriptors.py:399-412 | as written, `hsi2rgb` at s = 0 lights only the sector's achromatic channel, at 85·i |
| Convert.HsiDarkIsBlack | ColorDescriptors.py:360-417 | zero intensity gives black from both HSI converters |
| Convert.HsiToRgbwDarkChannel | ColorDescriptors.py:363-377 | `hsi2rgbw` leaves blue dark in the first third, red in the second and green in the third |
| Convert.HsiToRgbwWhiteShare | ColorDescriptors.py:379-385 | `hsi2rgbw` gives no white at full saturation; at no saturation all the light is white and the colour channels are dark |
| ColorSolid.FromRgb | ColorDescriptors.py:54-67 | the RGB[W] constructor branch keeps the channels; it tags RGBW and keeps the white when white is enabled, and tags RGB with no white otherwise; HSI is derived from the channels |
| ColorSolid.FromHsi | ColorDescriptors.py:70-81 | the HSI constructor branch keeps hue, saturation and intensity, tags HSI, and derives channels in [0, 255] |
| ColorSolid.Construct | ColorDescriptors.py:39-84 | with Python's defaults (no channels, hue 0, saturation 1, intensity 1, white enabled), a complete RGB triple wins over HSI; otherwise a complete HSI triple is used; only when the caller passes a None hue, saturation or intensity explicitly is the object left unconfigured |
| ColorSolid.PartialRgbBecomesHsi | ColorDescriptors.py:39-84 | `ColorSolid(red=r)` ignores the lone channel and is the HSI colour (0, 1, 1) with white enabled |
| ColorSolid.EffectiveTag | ColorDescriptors.py:87-92 | the branch tests `forceMode == X or _inputType == X` in the order rgb, rgbw, hsi, so an RGB tag beats any forced mode and an RGBW tag beats a forced HSI |
| ColorSolid.Copy | ColorDescriptors.py:86-92 | every copy has white enabled and is in step; a copy from the channels keeps them and is tagged RGBW, keeping the white only from an RGBW branch; a copy from HSI keeps the HSI fields |
| ColorSolid.CopyEncoding | ColorDescriptors.py:86-92 | the copy's word is the original's, plus `"00"` for an RGB colour and plus `'w'` for a white-disabled HSI colour |
| ColorSolid.EncodedHue | ColorDescriptors.py:101 | the hue written is in [0, 360], is 360 exactly when the hue is 360, and otherwise differs from the hue by a whole number of turns (so it is `hue % 360`) |
| ColorSolid.ToString | ColorDescriptors.py:94-105 | the word starts with `'h'` when the effective branch is HSI and with `'c'` otherwise |
| ColorSolid.Parse | ColorDescriptors.py:212-246 | a colour comes back only from a word of length 7, 9, 10 or 11; its white is enabled for lengths 9 and 11; it is HSI exactly for an `'h'` word; and it is in step |
| ColorSolid.ParseRejects | ColorDescriptors.py:214-246 | length ≤ 1 raises; a bad length for the leading letter or an unknown leading letter gives None; a non-hex field in a well-shaped word raises |
| ColorSolid.ParseRgbRoundTrip | ColorDescriptors.py:217-227 | a 7- or 9-character `'c'` word of lower-case hex parses to a colour with white enabled exactly for 9 characters, and that colour writes the same word |
| ColorSolid.ParseHsiRoundTrip | ColorDescriptors.py:228-243 | a lower-case 10- or 11-character `'h'` word whose hue field is at most 0x168 parses to an HSI colour that writes the same word |
| ColorSolid.EncodeDecodeRoundTrip | ColorDescriptors.py:94-246 | when the fields fit their widths, `parse(toString(c))` returns a colour whose word is c's word |
| ColorSolid.SetRed | ColorDescriptors.py:110-118 | the red setter stores the value, keeps the other channels and white, retags RGBW or RGB by the white flag, and recomputes HSI |
| ColorSolid.SetGreen | ColorDescriptors.py:123-131 | as SetRed, for green |
| ColorSolid.SetBlue | ColorDescriptors.py:136-144 | as SetRed, for blue |
| ColorSolid.White | ColorDescriptors.py:146-151 | the getter yields a value only while white is enabled, and then the stored white (`WhiteHiddenWhileDisabled` shows the value is kept while hidden) |
| ColorSolid.SetWhite | ColorDescriptors.py:152-159 | a white value written while white is disabled changes nothing; None, or any value with white enabled, is stored, retags RGBW and recomputes HSI with the channels kept |
| ColorSolid.WhiteHiddenWhileDisabled | ColorDescriptors.py:146-159 | while white is disabled the `white` property reads None whatever is stored or written, an RGBW word writes white 0, and enabling white exposes the stored value |
| ColorSolid.SetEnableWhite | ColorDescriptors.py:200-202 | the setter changes only the flag: every other field is kept, and the getter then shows the stored white exactly when the flag is on |
| ColorSolid.EnableWhiteUndo | ColorDescriptors.py:200-202 | setting the flag back to its old value gives back the same colour |
| ColorSolid.EnableWhiteKeepsChannelSync | ColorDescriptors.py:200-202 | a channel-tagged colour whose white is None or 0 stays in step under either flag value, since `rgbw2hsi` then falls back to `rgb2hsi` |
| ColorSolid.EnableWhiteCanDesync | ColorDescriptors.py:200-202 | the `enableWhite` setter recomputes nothing, so it can leave the two representations out of step |
| ColorSolid.SetHue | ColorDescriptors.py:164-171 | the hue setter stores the hue, keeps s and i, tags HSI and recomputes the channels; a disabled white is left as stored |
| ColorSolid.SetSaturation | ColorDescriptors.py:176-183 | as SetHue, for saturation |
| ColorSolid.SetIntensity | ColorDescriptors.py:188-195 | as SetHue, for intensity |
| ColorSolid.HueRoundsAfterWrap | ColorDescriptors.py:101-103 | the hue is rounded after the wrap, so 359.6 is written as 0x168 |
| ColorSolid.Eq | ColorDescriptors.py:207-210 | equality is word equality, so equal colours take the same branch family (`'h'` or `'c'`); `SameHsiFields`, `EqualityModuloTurns` and `FullTurnNotZero` state when HSI colours are equal |
| ColorSolid.SameHsiFields | ColorDescriptors.py:207-210 | HSI colours with the same wrapped hue, s, i and white flag are equal under `__eq__` |
| ColorSolid.EqualityModuloTurns | ColorDescriptors.py:207-210 | hues a whole turn apart give equal colours under `__eq__` (away from the 0/360 edge) |
| ColorSolid.FullTurnNotZero | ColorDescriptors.py:101 | hue 360 is kept as 0x168, so it is not equal to hue 0 |
| Interp.Lerp | ColorDescriptors.py:522-528 | x is clamped into [x0, x1] first, so the result is y0 at or below x0, y1 at or above x1, and always between y0 and y1 |
| Interp.LerpUnit | ColorDescriptors.py:522-528 | on [0, 1] with ends 0 and 1, `lerp` is the affine blend y0 + (y1 − y0)·x |
| Interp.Position | ColorDescriptors.py:548 | only the bound the interpolators rely on: the fraction k/(steps + 1) is non-negative and below 1 for every step of a block |
| Interp.LinearInterp | ColorDescriptors.py:530-621 | None gives None; a bare colour or steps = 0 gives the input unchanged; an empty list raises; otherwise the list has (n − 1)(steps + 1) + 1 colours and ends with the retagged copy of the last node |
| Interp.Last | ColorDescriptors.py:617-619 | the closing element has white enabled and is tagged for the interpolator |
| Interp.InterpIndex | ColorDescriptors.py:544-562 | element p·(steps + 1) + k is the k-th colour of the block between nodes p and p + 1 |
| Interp.HsiInterpEntries | ColorDescriptors.py:544-562 | in HSI mode that element is built from HSI with the `lerp`ed hue, saturation and intensity and the list-wide white flag |
| Interp.HsiStepFields | ColorDescriptors.py:548-551 | an HSI step's fields are the affine blends of the ends' fields |
| Interp.HsiStepNoWrap | ColorDescriptors.py:549 | hue is blended linearly in degrees with no shortest-arc wrap: it stays between the end hues, and the first colour of a block has the first node's HSI fields |
| Interp.RgbwInterpEntries | ColorDescriptors.py:635-667 | in RGBW mode each block starts with the node itself; later colours have rounded `lerp`ed channels, white enabled exactly when some node enables it, and a white blended with a missing end counted as 0, or None when both ends lack one |
| Interp.MixChannelBetween | ColorDescriptors.py:644-646 | a rounded channel blend lies between the rounded end values, and at position 0 it is the first end rounded |
| Interp.RgbwMidpointRoundsToEven | ColorDescriptors.py:644-646 | the one-step RGBW gradient from `cffff0000` to `c00000000` passes through `c80800000`, since 127.5 rounds to 128 |
| Interp.AnyWhiteLoop | ColorDescriptors.py:540 | the `any(...)` scan finds whether some node enables white |
| Interp.HsiBlockLoop | ColorDescriptors.py:547-562 | the HSI inner loop over idx in 1..steps+1 produces exactly the block |
| Interp.RgbwBlockLoop | ColorDescriptors.py:639-667 | the RGBW inner loop, appending the node and then idx in 0..steps-1, produces exactly the block |
| Interp.LinearInterpLoop | ColorDescriptors.py:530-672 | the source's nested loops compute the same list as the list definition, in both modes |
| ColorGradient.Validate | ColorDescriptors.py:440-445 | None, a bare colour, or a list of colours only is accepted; a list with a non-colour item, or anything else, is refused |
| ColorGradient.Generate | ColorDescriptors.py:465-469 | "hsi" and "rgbw" run their interpolator, any other mode gives None; it raises only for an empty list with steps ≥ 1 |
| ColorGradient.SetNodes | ColorDescriptors.py:438-445 | refused input leaves the gradient unchanged; accepted input is stored and the gradient regenerated; it raises only for an empty list with steps ≥ 1 in a known mode |
| ColorGradient.SetSteps | ColorDescriptors.py:447-450 | the steps setter stores the count and regenerates, raising only for an empty list with steps ≥ 1 in a known mode |
| ColorGradient.SetMode | ColorDescriptors.py:426 | assigning the mode changes nothing else, so nothing is regenerated |
| ColorGradient.ModeChangeNotRegenerated | ColorDescriptors.py:426 | a fresh HSI gradient whose first node is RGB goes stale when the mode is set to "rgbw" |
| ColorGradient.New | ColorDescriptors.py:423-428 | the constructor keeps steps and mode; accepted nodes are stored with a fresh gradient; refused nodes leave no nodes and no gradient attribute |
| ColorGradient.UnknownModeGeneratesNone | ColorDescriptors.py:465-469 | with an unknown mode the gradient attribute is None |
| ColorGradient.ToString | ColorDescriptors.py:452-455 | no nodes gives ""; a bare colour cannot be iterated and raises; a list gives a word containing `';'` |
| ColorGradient.ParseTokens | ColorDescriptors.py:478 | parsing the words raises exactly when some word's `parse` raises, and otherwise gives each word's result in order |
| ColorGradient.Parse | ColorDescriptors.py:471-480 | a text with no `';'` raises; a parsed gradient is always in mode "hsi", has nodes exactly when it has a gradient attribute, and a node list is non-empty and fresh |
| ColorGradient.WordChars | ColorDescriptors.py:94-105 | a colour word holds only `c`, `h`, `w` and lower-case hex digits, so no separator or parenthesis |
| ColorGradient.SplitOnceAt | ColorDescriptors.py:477 | cutting at the first `';'` splits the gradient word into the node words and the step count |
| ColorGradient.TextRoundTrip | ColorDescriptors.py:452-480 | `parse(toString())` of a gradient with a non-empty list of encodable nodes gives mode "hsi", the same step count, nodes equal one by one under `__eq__`, and the same word |
| ColorGradient.ParenthesisedText | ColorDescriptors.py:477 | a gradient word wrapped in parentheses parses exactly as the bare word |
| ColorGradient.RejectedWord | ColorDescriptors.py:441-445 | a word that `parse` turns away without raising makes the nodes setter refuse the whole list: no nodes, no gradient attribute, and the word "" |
| ColorGradient.EmptyListDoesNotRoundTrip | ColorDescriptors.py:452-480 | an empty node list with no steps writes `";0"`, which `parse` does not read back: it raises on the empty word |

## Left out

- The transcendental bodies (`acos`, `atan`, `sqrt` and the `cos` sector ratio) are parameters, so no RGB→HSI→RGB round trip is claimed. `math.pi` and `sqrt(3)` are the 16- and 17-digit decimals Python prints for the doubles.
- Floating-point inexactness: arithmetic is on exact reals.
- `math.acos` raises ValueError outside [-1, 1]; the model's `acos` parameter is total. So a channel above 255 (for example `ColorSolid(red=300, green=0, blue=0)`, or the red setter given 300, which has already stored `_red`) makes `rgb2hsi`/`rgbw2hsi` raise in Python, while the model returns a colour that is in step.
- Channels are non-negative reals. The setters and the constructor therefore accept only non-negative channel values, and `rgbw2hsi`'s None-to-0 conversion of missing channels is not needed. Python's setters accept any number, negative ones included.
- `int(x, 16)` and `int(x)` accept signs, whitespace, a `0x` prefix and underscores. The model reads strict digit strings only and treats anything else as a raise, so negative step counts are not modelled.
- The `type(strIn) != str` checks: inputs are strings by type.
- The `print` diagnostics are modelled as None results or unchanged values.
- `BaseColor`, both `__repr__` methods (they return `toString()`), and `ColorGradient.__eq__` (it compares `toString()` words) are not modelled.
- `ColorSpecial` and `ColorMode`: their `parse` returns nothing and they keep class-level registries.
- The commented-out great-circle interpolator is dead code. The unused `interpIntensity` parameter is not modelled.
- Object identity: the RGBW interpolator appends the node object itself, and later mutation of either would show in both. Values have no identity here.
- A setter that raises has already stored `_nodes` or `_steps` in Python. The model's `Raises` carries no partially updated gradient.
- An unconfigured ColorSolid (neither triple given) is None. The half-built Python object is not modelled.
- ColorSolid.Parse: the contract does not state the parsed fields. `ParseRgbRoundTrip` and `ParseHsiRoundTrip` state them through the word they write back.
- Interp.HsiInterpEntries: it does not restate the tag, white flag and consistency of the element. These follow from `FromHsi`'s contract.

=== FILE: basics.dfy ===
/** Small numeric building blocks shared by the colour model: Python's
    `round`, Python's float `% 360`, the clamp idiom the converters use,
    and the two ways a Python call can end (raise, or return a value). */
module Basics {

  /** Python's `None` versus a value. */
  datatype Option<+T> = None | Some(value: T)

  /** A Python call either raises an exception or returns a value. */
  datatype Outcome<+T> = Raises | Returns(value: T)

  /** Python's built-in `round` on a float: the nearest integer, and on a
      tie (fractional part exactly one half) the even neighbour. */
  function Round(x: real): (n: int)
    ensures x - 0.5 <= n as real <= x + 0.5
    ensures (n as real == x - 0.5 || n as real == x + 0.5) ==> n % 2 == 0
  {
    var f := x.Floor;
    var d := x - f as real;
    if d < 0.5 then f
    else if d > 0.5 then f + 1
    else if f % 2 == 0 then f
    else f + 1
  }

  lemma RoundOfInteger(k: int)
    ensures Round(k as real) == k
  {
  }

  /** Rounding never reverses order. */
  lemma RoundMonotone(x: real, y: real)
    requires x <= y
    ensures Round(x) <= Round(y)
  {
  }

  /** Round(x) of a value between two integers stays between them. */
  lemma RoundBetween(x: real, lo: int, hi: int)
    requires lo as real <= x <= hi as real
    ensures lo <= Round(x) <= hi
  {
    RoundMonotone(lo as real, x);
    RoundMonotone(x, hi as real);
    RoundOfInteger(lo);
    RoundOfInteger(hi);
  }

  /** Python's `x % 360` on a float (floored modulo): the unique value in
      [0, 360) that differs from x by a whole number of turns. */
  function FloorMod360(x: real): (r: real)
    ensures 0.0 <= r < 360.0
    ensures ((x - r) / 360.0).Floor as real == (x - r) / 360.0
    ensures 0.0 <= x < 360.0 ==> r == x
  {
    var k := (x / 360.0).Floor;
    assert (k as real) <= x / 360.0 < k as real + 1.0;
    assert ((k as real) * 360.0 / 360.0).Floor == k;
    x - 360.0 * k as real
  }

  /** A whole turn added to the angle does not change its residue. */
  lemma FloorMod360Periodic(x: real)
    ensures FloorMod360(x + 360.0) == FloorMod360(x)
  {
    var k := (x / 360.0).Floor;
    assert (x + 360.0) / 360.0 == x / 360.0 + 1.0;
    assert ((x + 360.0) / 360.0).Floor == k + 1;
  }

  /** The converters' clamp `(x if x < hi else hi) if x > 0 else 0`: the
      point of [0, hi] nearest to x. */
  function Clamp(x: real, hi: real): (y: real)
    requires 0.0 <= hi
    ensures 0.0 <= y <= hi
    ensures 0.0 <= x <= hi ==> y == x
    ensures x >= hi ==> y == hi
    ensures x <= 0.0 ==> y == 0.0
  {
    if x > 0.0 then (if x < hi then x else hi) else 0.0
  }

  function Min3(a: real, b: real, c: real): (m: real)
    ensures m <= a && m <= b && m <= c
    ensures m == a || m == b || m == c
  {
    var bc := if b < c then b else c;
    if a < bc then a else bc
  }

  function Max3(a: real, b: real, c: real): (m: real)
    ensures m >= a && m >= b && m >= c
    ensures m == a || m == b || m == c
  {
    var bc := if b > c then b else c;
    if a > bc then a else bc
  }

  lemma MulMono(a: real, b: real, c: real)
    requires 0.0 <= a && b <= c
    ensures a * b <= a * c
  {
    assert a * c - a * b == a * (c - b);
  }

  lemma MulNonNeg(a: real, b: real)
    requires 0.0 <= a && 0.0 <= b
    ensures 0.0 <= a * b
  {
  }
}

=== FILE: colorsolid.dfy ===
/** ColorSolid: one colour held in both representations (RGB[W] channels
    and HSI), tagged with the representation that last drove it, plus its
    descriptor-word codec: 'c' + 2-digit hex R, G, B [, W] or 'h' + 3-digit
    hex H, S, I [+ 'w']. Objects are immutable values here; each setter
    returns the updated colour. */
module ColorSolid {
  import opened Basics
  import opened Text
  import opened Convert

  /** `_inputType`: the representation that last drove the colour. */
  datatype Tag = RgbTag | RgbwTag | HsiTag

  /** A ColorSolid. `storedWhite` is the private `_white`, which the
      `white` property hides while white is disabled (see White). */
  datatype Color = Color(
    red: Channel,
    green: Channel,
    blue: Channel,
    storedWhite: Option<Channel>,
    hue: real,
    saturation: real,
    intensity: real,
    enableWhite: bool,
    tag: Tag)

  /** The `white` property: the stored white while white is enabled, None
      otherwise. */
  function White(c: Color): (w: Option<Channel>)
    ensures w.Some? ==> c.enableWhite
    ensures c.enableWhite ==> w == c.storedWhite
  {
    if c.enableWhite then c.storedWhite else None
  }

  /** The two representations agree as the converters define it for the
      tag: HSI derived from the channels for an RGB[W] tag, channels (and
      white, when enabled) derived from HSI for the HSI tag. */
  predicate Synced(m: Math, c: Color) {
    match c.tag
    case HsiTag =>
      if c.enableWhite then
        var q := HsiToRgbw(m, c.hue, c.saturation, c.intensity);
        c.red == q.red && c.green == q.green && c.blue == q.blue && c.storedWhite == Some(q.white)
      else
        HsiToRgb(m, c.hue, c.saturation, c.intensity) == Rgb(c.red, c.green, c.blue)
    case _ =>
      Hsi(c.hue, c.saturation, c.intensity) == RgbwToHsi(m, c.red, c.green, c.blue, White(c))
  }

  /** The constructor's RGB[W] branch: with white enabled the colour is
      tagged RGBW and keeps the given white; without, it is tagged RGB and
      the white argument is dropped. */
  function FromRgb(m: Math, red: Channel, green: Channel, blue: Channel, white: Option<Channel>,
                   enableWhite: bool): (c: Color)
    ensures c.red == red && c.green == green && c.blue == blue && c.enableWhite == enableWhite
    ensures c.tag == (if enableWhite then RgbwTag else RgbTag)
    ensures White(c) == (if enableWhite then white else None)
    ensures Synced(m, c)
  {
    if enableWhite then
      var h := RgbwToHsi(m, red, green, blue, white);
      Color(red, green, blue, white, h.hue, h.saturation, h.intensity, true, RgbwTag)
    else
      var h := RgbToHsi(m, red, green, blue);
      Color(red, green, blue, None, h.hue, h.saturation, h.intensity, false, RgbTag)
  }

  /** The constructor's HSI branch: keeps h, s, i as given and derives the
      channels (and white, when enabled). */
  function FromHsi(m: Math, hue: real, saturation: real, intensity: real, enableWhite: bool): (c: Color)
    ensures c.hue == hue && c.saturation == saturation && c.intensity == intensity
    ensures c.enableWhite == enableWhite && c.tag == HsiTag
    ensures c.red <= 255.0 && c.green <= 255.0 && c.blue <= 255.0
    ensures Synced(m, c)
  {
    if enableWhite then
      var q := HsiToRgbw(m, hue, saturation, intensity);
      Color(q.red, q.green, q.blue, Some(q.white), hue, saturation, intensity, true, HsiTag)
    else
      var q := HsiToRgb(m, hue, saturation, intensity);
      Color(q.red, q.green, q.blue, None, hue, saturation, intensity, false, HsiTag)
  }

  /** `ColorSolid(red, green, blue, white, hue, saturation, intensity,
      enableWhite)` with Python's defaults: a complete RGB triple wins;
      otherwise a complete HSI triple is used, which the defaults supply;
      only an explicit None among hue, saturation and intensity leaves the
      object unconfigured, which is None here. */
  function Construct(m: Math, red: Option<Channel> := None, green: Option<Channel> := None,
                     blue: Option<Channel> := None, white: Option<Channel> := None,
                     hue: Option<real> := Some(0.0), saturation: Option<real> := Some(1.0),
                     intensity: Option<real> := Some(1.0), enableWhite: bool := true): (r: Option<Color>)
    ensures r.Some? <==>
      ((red.Some? && green.Some? && blue.Some?) || (hue.Some? && saturation.Some? && intensity.Some?))
    ensures red.Some? && green.Some? && blue.Some? ==>
      && r.Some? && r.value.tag != HsiTag
      && r.value.red == red.value && r.value.green == green.value && r.value.blue == blue.value
    ensures !(red.Some? && green.Some? && blue.Some?) && r.Some? ==>
      && r.value.tag == HsiTag
      && r.value.hue == hue.value && r.value.saturation == saturation.value
      && r.value.intensity == intensity.value
    ensures r.Some? ==> r.value.enableWhite == enableWhite && Synced(m, r.value)
  {
    if red.Some? && green.Some? && blue.Some? then
      Some(FromRgb(m, red.value, green.value, blue.value, white, enableWhite))
    else if hue.Some? && saturation.Some? && intensity.Some? then
      Some(FromHsi(m, hue.value, saturation.value, intensity.value, enableWhite))
    else None
  }

  /** With the default HSI arguments, an incomplete RGB triple is ignored:
      `ColorSolid(red=r)` is the HSI colour (0, 1, 1) with white enabled. */
  lemma PartialRgbBecomesHsi(m: Math, r: Channel)
    ensures Construct(m, Some(r)) == Some(FromHsi(m, 0.0, 1.0, 1.0, true))
    ensures Construct(m, Some(r)).value.tag == HsiTag
  {
  }

  /** The branch `copy` and `toString` take: each tests
      `forceMode == X or _inputType == X` for X = rgb, rgbw, hsi in turn,
      so an RGB tag beats any forced mode and an RGBW tag beats a forced
      HSI. */
  function EffectiveTag(tag: Tag, force: Option<Tag>): (t: Tag)
    ensures t == RgbTag <==> tag == RgbTag || force == Some(RgbTag)
    ensures t == HsiTag <==> tag == HsiTag && (force.None? || force.value == HsiTag)
  {
    var forced := if force.Some? then force.value else tag;
    if forced == RgbTag || tag == RgbTag then RgbTag
    else if forced == RgbwTag || tag == RgbwTag then RgbwTag
    else assert tag.HsiTag? && forced.HsiTag?; HsiTag
  }

  /** `copy(forceMode)`: rebuilds the colour through the constructor from
      the chosen representation. The constructor is never passed
      enableWhite, so every copy has white enabled; an RGB copy is
      therefore tagged RGBW and has no white. */
  function Copy(m: Math, c: Color, force: Option<Tag>): (r: Color)
    ensures r.enableWhite && Synced(m, r)
    ensures r.tag == (if EffectiveTag(c.tag, force) == HsiTag then HsiTag else RgbwTag)
    ensures EffectiveTag(c.tag, force) != HsiTag ==>
      r.red == c.red && r.green == c.green && r.blue == c.blue
    ensures EffectiveTag(c.tag, force) == RgbTag ==> White(r) == None
    ensures EffectiveTag(c.tag, force) == RgbwTag ==> White(r) == White(c)
    ensures EffectiveTag(c.tag, force) == HsiTag ==>
      r.hue == c.hue && r.saturation == c.saturation && r.intensity == c.intensity
  {
    match EffectiveTag(c.tag, force)
    case RgbTag => FromRgb(m, c.red, c.green, c.blue, None, true)
    case RgbwTag => FromRgb(m, c.red, c.green, c.blue, White(c), true)
    case HsiTag => FromHsi(m, c.hue, c.saturation, c.intensity, true)
  }

  /** The hue `toString` writes: reduced modulo 360, except that exactly
      360 is kept. */
  function EncodedHue(hue: real): (h: real)
    ensures 0.0 <= h <= 360.0
    ensures h == 360.0 <==> hue == 360.0
    ensures ((hue - h) / 360.0).Floor as real == (hue - h) / 360.0
  {
    if hue == 360.0 then 360.0 else FloorMod360(hue)
  }

  /** `toString(forceMode)`: "crrggbb", "crrggbbww" or "hhhhsssiii[w]" in
      lower-case hex, each field rounded half to even; a missing white is
      written as 0 and the HSI hue is rounded after the wrap. */
  function ToString(c: Color, force: Option<Tag>): (s: string)
    ensures |s| >= 1 && s[0] == (if EffectiveTag(c.tag, force) == HsiTag then 'h' else 'c')
  {
    match EffectiveTag(c.tag, force)
    case RgbTag => RgbText(Round(c.red), Round(c.green), Round(c.blue))
    case RgbwTag =>
      RgbText(Round(c.red), Round(c.green), Round(c.blue)) + FormatHex(Round(WhiteOrZero(White(c))), 2)
    case HsiTag =>
      HsiText(Round(EncodedHue(c.hue)), Round(c.saturation * 255.0), Round(c.intensity * 255.0), c.enableWhite)
  }

  /** 'c' followed by the three rounded channels as two-digit hex fields. */
  function RgbText(r: int, g: int, b: int): string {
    "c" + FormatHex(r, 2) + FormatHex(g, 2) + FormatHex(b, 2)
  }

  /** 'h' followed by the rounded hue, s * 255 and i * 255 as three-digit
      hex fields, with a trailing 'w' when white is enabled. */
  function HsiText(h: int, s: int, i: int, white: bool): string {
    "h" + FormatHex(h, 3) + FormatHex(s, 3) + FormatHex(i, 3) + (if white then "w" else "")
  }

  /** `__eq__`: colours are equal when they encode to the same string, so
      equal colours take the same `toString` branch family ('h' or 'c'). */
  predicate Eq(a: Color, b: Color)
    ensures Eq(a, b) ==> (EffectiveTag(a.tag, None) == HsiTag <==> EffectiveTag(b.tag, None) == HsiTag)
  {
    ToString(a, None) == ToString(b, None)
  }

  /** The value of the hex field s[i..i+w]. */
  function Field(s: string, i: nat, w: nat): Channel
    requires i + w <= |s| && AllHex(s[i..i + w])
  {
    HexValue(s[i..i + w]) as real
  }

  lemma AllHexSlice(s: string, lo: nat, hi: nat, i: nat, w: nat)
    requires lo <= i && i + w <= hi <= |s| && AllHex(s[lo..hi])
    ensures AllHex(s[i..i + w])
  {
    assert forall k :: i <= k < i + w ==> IsHexDigit(s[lo..hi][k - lo]) && s[k] == s[lo..hi][k - lo];
  }

  /** `parse`: raises on a string of length 0 or 1 and on a non-hex field;
      returns None for a bad length or leading character; otherwise builds
      an RGB (7 chars, white disabled), RGBW (9 chars), HSI-with-white
      ('h...w', 11 chars) or HSI (10 chars) colour. */
  function Parse(m: Math, s: string): (r: Outcome<Option<Color>>)
    ensures r.Returns? && r.value.Some? ==>
      && |s| in {7, 9, 10, 11}
      && r.value.value.enableWhite == (|s| == 9 || |s| == 11)
      && (r.value.value.tag == HsiTag <==> Lower(s[0]) == 'h')
      && Synced(m, r.value.value)
  {
    if |s| <= 1 then Raises
    else if Lower(s[0]) == 'c' then
      if |s| != 7 && |s| != 9 then Returns(None)
      else if !AllHex(s[1..]) then Raises
      else
        AllHexSlice(s, 1, |s|, 1, 2);
        AllHexSlice(s, 1, |s|, 3, 2);
        AllHexSlice(s, 1, |s|, 5, 2);
        var red, green, blue := Field(s, 1, 2), Field(s, 3, 2), Field(s, 5, 2);
        if |s| == 7 then Returns(Some(FromRgb(m, red, green, blue, None, false)))
        else
          AllHexSlice(s, 1, |s|, 7, 2);
          Returns(Some(FromRgb(m, red, green, blue, Some(Field(s, 7, 2)), true)))
    else if Lower(s[0]) == 'h' && Lower(s[|s| - 1]) == 'w' then
      if |s| != 11 then Returns(None)
      else if !AllHex(s[1..10]) then Raises
      else
        AllHexSlice(s, 1, 10, 1, 3);
        AllHexSlice(s, 1, 10, 4, 3);
        AllHexSlice(s, 1, 10, 7, 3);
        Returns(Some(FromHsi(m, Field(s, 1, 3), Field(s, 4, 3) / 255.0, Field(s, 7, 3) / 255.0, true)))
    else if Lower(s[0]) == 'h' then
      if |s| != 10 then Returns(None)
      else if !AllHex(s[1..10]) then Raises
      else
        AllHexSlice(s, 1, 10, 1, 3);
        AllHexSlice(s, 1, 10, 4, 3);
        AllHexSlice(s, 1, 10, 7, 3);
        Returns(Some(FromHsi(m, Field(s, 1, 3), Field(s, 4, 3) / 255.0, Field(s, 7, 3) / 255.0, false)))
    else Returns(None)
  }

  /** What the red, green and blue setters do after storing the value:
      retag RGBW (white enabled) or RGB and recompute HSI. */
  function ResyncFromChannels(m: Math, c: Color): Color {
    var tag := if c.enableWhite then RgbwTag else RgbTag;
    var h := if c.enableWhite then RgbwToHsi(m, c.red, c.green, c.blue, White(c))
             else RgbToHsi(m, c.red, c.green, c.blue);
    c.(hue := h.hue, saturation := h.saturation, intensity := h.intensity, tag := tag)
  }

  /** What the hue, saturation and intensity setters do after storing the
      value: retag HSI and recompute the channels; white is recomputed only
      when enabled, otherwise the stored white is left as it was. */
  function ResyncFromHsi(m: Math, c: Color): Color {
    if c.enableWhite then
      var q := HsiToRgbw(m, c.hue, c.saturation, c.intensity);
      c.(red := q.red, green := q.green, blue := q.blue, storedWhite := Some(q.white), tag := HsiTag)
    else
      var q := HsiToRgb(m, c.hue, c.saturation, c.intensity);
      c.(red := q.red, green := q.green, blue := q.blue, tag := HsiTag)
  }

  /** The `red` setter. */
  function SetRed(m: Math, c: Color, v: Channel): (r: Color)
    ensures r.red == v && r.green == c.green && r.blue == c.blue
    ensures r.storedWhite == c.storedWhite && r.enableWhite == c.enableWhite
    ensures r.tag == (if c.enableWhite then RgbwTag else RgbTag)
    ensures Synced(m, r)
  {
    ResyncFromChannels(m, c.(red := v))
  }

  /** The `green` setter. */
  function SetGreen(m: Math, c: Color, v: Channel): (r: Color)
    ensures r.green == v && r.red == c.red && r.blue == c.blue
    ensures r.storedWhite == c.storedWhite && r.enableWhite == c.enableWhite
    ensures r.tag == (if c.enableWhite then RgbwTag else RgbTag)
    ensures Synced(m, r)
  {
    ResyncFromChannels(m, c.(green := v))
  }

  /** The `blue` setter. */
  function SetBlue(m: Math, c: Color, v: Channel): (r: Color)
    ensures r.blue == v && r.red == c.red && r.green == c.green
    ensures r.storedWhite == c.storedWhite && r.enableWhite == c.enableWhite
    ensures r.tag == (if c.enableWhite then RgbwTag else RgbTag)
    ensures Synced(m, r)
  {
    ResyncFromChannels(m, c.(blue := v))
  }

  /** The `white` setter: a value written while white is disabled is
      refused and nothing changes; otherwise (including None while
      disabled) the white is stored, the tag becomes RGBW and HSI is
      recomputed from the channels. */
  function SetWhite(m: Math, c: Color, v: Option<Channel>): (r: Color)
    ensures !c.enableWhite && v.Some? ==> r == c
    ensures c.enableWhite || v.None? ==>
      && r.storedWhite == v && r.tag == RgbwTag && Synced(m, r)
      && r.red == c.red && r.green == c.green && r.blue == c.blue && r.enableWhite == c.enableWhite
  {
    if !c.enableWhite && v.Some? then c
    else
      var c' := c.(storedWhite := v);
      var h := RgbwToHsi(m, c'.red, c'.green, c'.blue, White(c'));
      c'.(hue := h.hue, saturation := h.saturation, intensity := h.intensity, tag := RgbwTag)
  }

  /** The `hue` setter. */
  function SetHue(m: Math, c: Color, v: real): (r: Color)
    ensures r.hue == v && r.saturation == c.saturation && r.intensity == c.intensity
    ensures r.enableWhite == c.enableWhite && r.tag == HsiTag && Synced(m, r)
    ensures !c.enableWhite ==> r.storedWhite == c.storedWhite
  {
    ResyncFromHsi(m, c.(hue := v))
  }

  /** The `saturation` setter. */
  function SetSaturation(m: Math, c: Color, v: real): (r: Color)
    ensures r.saturation == v && r.hue == c.hue && r.intensity == c.intensity
    ensures r.enableWhite == c.enableWhite && r.tag == HsiTag && Synced(m, r)
    ensures !c.enableWhite ==> r.storedWhite == c.storedWhite
  {
    ResyncFromHsi(m, c.(saturation := v))
  }

  /** The `intensity` setter. */
  function SetIntensity(m: Math, c: Color, v: real): (r: Color)
    ensures r.intensity == v && r.hue == c.hue && r.saturation == c.saturation
    ensures r.enableWhite == c.enableWhite && r.tag == HsiTag && Synced(m, r)
    ensures !c.enableWhite ==> r.storedWhite == c.storedWhite
  {
    ResyncFromHsi(m, c.(intensity := v))
  }

  /** The `enableWhite` setter: flips the flag and recomputes nothing. */
  function SetEnableWhite(c: Color, on: bool): (r: Color)
    ensures r.enableWhite == on && r.storedWhite == c.storedWhite && r.tag == c.tag
    ensures r.red == c.red && r.green == c.green && r.blue == c.blue
    ensures r.hue == c.hue && r.saturation == c.saturation && r.intensity == c.intensity
    ensures White(r) == (if on then c.storedWhite else None)
  {
    c.(enableWhite := on)
  }

  /** Setting the flag back to its old value restores the colour. */
  lemma EnableWhiteUndo(c: Color, on: bool)
    ensures SetEnableWhite(SetEnableWhite(c, on), c.enableWhite) == c
  {
  }

  /** A channel-tagged colour with no white to speak of stays in step
      whatever the flag: rgbw2hsi falls back to rgb2hsi for a white of 0
      or None. */
  lemma EnableWhiteKeepsChannelSync(m: Math, c: Color, on: bool)
    requires Synced(m, c) && c.tag != HsiTag && WhiteOrZero(c.storedWhite) == 0.0
    ensures Synced(m, SetEnableWhite(c, on))
  {
    var r := SetEnableWhite(c, on);
    assert WhiteOrZero(White(c)) == 0.0 && WhiteOrZero(White(r)) == 0.0;
  }

  /** The fields `toString` writes fit its widths. */
  predicate Encodable(c: Color, force: Option<Tag>) {
    match EffectiveTag(c.tag, force)
    case RgbTag => Round(c.red) < 256 && Round(c.green) < 256 && Round(c.blue) < 256
    case RgbwTag =>
      Round(c.red) < 256 && Round(c.green) < 256 && Round(c.blue) < 256
      && Round(WhiteOrZero(White(c))) < 256
    case HsiTag =>
      0 <= Round(c.saturation * 255.0) < 4096 && 0 <= Round(c.intensity * 255.0) < 4096
  }

  lemma Pow16Widths()
    ensures Pow16(2) == 256 && Pow16(3) == 4096
  {
    assert Pow16(1) == 16;
  }

  /** The inputs `parse` turns away: length 0 or 1 raises; a 'c' word not
      of length 7 or 9, an 'h...w' word not of length 11, any other 'h'
      word not of length 10, or any other leading character gives None; a
      non-hex field in a word of the right shape raises. Case is ignored
      in the leading 'c'/'h' and the trailing 'w'. */
  lemma ParseRejects(m: Math, s: string)
    ensures |s| <= 1 ==> Parse(m, s) == Raises
    ensures |s| > 1 && Lower(s[0]) == 'c' && |s| != 7 && |s| != 9 ==> Parse(m, s) == Returns(None)
    ensures |s| > 1 && Lower(s[0]) == 'h' && Lower(s[|s| - 1]) == 'w' && |s| != 11 ==>
      Parse(m, s) == Returns(None)
    ensures |s| > 1 && Lower(s[0]) == 'h' && Lower(s[|s| - 1]) != 'w' && |s| != 10 ==>
      Parse(m, s) == Returns(None)
    ensures |s| > 1 && Lower(s[0]) != 'c' && Lower(s[0]) != 'h' ==> Parse(m, s) == Returns(None)
    ensures |s| > 1 && Lower(s[0]) == 'c' && (|s| == 7 || |s| == 9) && !AllHex(s[1..]) ==>
      Parse(m, s) == Raises
    ensures (|s| > 1 && Lower(s[0]) == 'h' && |s| == 10 + (if Lower(s[|s| - 1]) == 'w' then 1 else 0)
             && !AllHex(s[1..10])) ==> Parse(m, s) == Raises
  {
  }

  lemma LowerHexSlice(s: string, lo: nat, hi: nat, i: nat, w: nat)
    requires lo <= i && i + w <= hi <= |s| && AllLowerHex(s[lo..hi])
    ensures AllLowerHex(s[i..i + w]) && AllHex(s[i..i + w])
  {
    assert forall k :: i <= k < i + w ==> IsLowerHexDigit(s[lo..hi][k - lo]) && s[k] == s[lo..hi][k - lo];
  }

  /** A field read by `parse` and written back by `toString` is unchanged. */
  lemma FieldRoundTrip(s: string, i: nat, w: nat)
    requires 1 <= w && i + w <= |s| && AllLowerHex(s[i..i + w])
    ensures AllHex(s[i..i + w]) && FormatHex(Round(Field(s, i, w)), w) == s[i..i + w]
  {
    HexValueRoundTrip(s[i..i + w]);
    RoundOfInteger(HexValue(s[i..i + w]));
  }

  /** A colour whose RGB[W] fields encode as the fields of the word s
      encodes as s. */
  lemma RgbWord(c: Color, s: string)
    requires |s| in {7, 9} && s[0] == 'c'
    requires c.tag == (if |s| == 9 then RgbwTag else RgbTag)
    requires FormatHex(Round(c.red), 2) == s[1..3] && FormatHex(Round(c.green), 2) == s[3..5]
    requires FormatHex(Round(c.blue), 2) == s[5..7]
    requires |s| == 9 ==> FormatHex(Round(WhiteOrZero(White(c))), 2) == s[7..9]
    ensures ToString(c, None) == s
  {
    assert EffectiveTag(c.tag, None) == c.tag;
    RgbTextOfFields(Round(c.red), Round(c.green), Round(c.blue), s);
    if |s| == 9 {
      assert s == s[..7] + s[7..9];
    } else {
      assert s == s[..7];
    }
  }

  /** The first seven characters of a 'c' word are determined by its three
      channel fields. */
  lemma RgbTextOfFields(r: int, g: int, b: int, s: string)
    requires |s| >= 7 && s[0] == 'c'
    requires FormatHex(r, 2) == s[1..3] && FormatHex(g, 2) == s[3..5] && FormatHex(b, 2) == s[5..7]
    ensures RgbText(r, g, b) == s[..7]
  {
    assert s[..7] == "c" + s[1..3] + s[3..5] + s[5..7];
  }

  /** A colour whose HSI fields encode as the fields of the word s encodes
      as s. */
  lemma HsiWord(c: Color, s: string)
    requires (|s| == 10 || (|s| == 11 && s[10] == 'w')) && s[0] == 'h'
    requires c.tag == HsiTag && c.enableWhite == (|s| == 11)
    requires FormatHex(Round(EncodedHue(c.hue)), 3) == s[1..4]
    requires FormatHex(Round(c.saturation * 255.0), 3) == s[4..7]
    requires FormatHex(Round(c.intensity * 255.0), 3) == s[7..10]
    ensures ToString(c, None) == s
  {
    HsiEncoding(c, None);
    HsiTextOfFields(Round(EncodedHue(c.hue)), Round(c.saturation * 255.0), Round(c.intensity * 255.0), c.enableWhite, s);
  }

  /** An HSI word is determined by its three fields and its white flag. */
  lemma HsiTextOfFields(h: int, sat: int, inten: int, white: bool, s: string)
    requires (|s| == 10 || (|s| == 11 && s[10] == 'w')) && s[0] == 'h' && white == (|s| == 11)
    requires FormatHex(h, 3) == s[1..4] && FormatHex(sat, 3) == s[4..7] && FormatHex(inten, 3) == s[7..10]
    ensures HsiText(h, sat, inten, white) == s
  {
    assert s == "h" + s[1..4] + s[4..7] + s[7..10] + (if white then "w" else "");
  }

  /** What `parse` builds from a 'c' word of the right length with hex
      fields. */
  lemma ParseRgbShape(m: Math, s: string)
    requires |s| in {7, 9} && s[0] == 'c' && AllHex(s[1..])
    ensures AllHex(s[1..3]) && AllHex(s[3..5]) && AllHex(s[5..7])
    ensures |s| == 9 ==> AllHex(s[7..9])
    ensures Parse(m, s) == Returns(Some(
      FromRgb(m, Field(s, 1, 2), Field(s, 3, 2), Field(s, 5, 2),
              if |s| == 9 then Some(Field(s, 7, 2)) else None, |s| == 9)))
  {
    AllHexSlice(s, 1, |s|, 1, 2);
    AllHexSlice(s, 1, |s|, 3, 2);
    AllHexSlice(s, 1, |s|, 5, 2);
    if |s| == 9 {
      AllHexSlice(s, 1, |s|, 7, 2);
    }
  }

  /** A lower-case 'c' word of 7 or 9 characters with hex fields parses to
      an RGB colour (white disabled) or an RGBW colour (white enabled)
      that encodes back to the same word. */
  lemma ParseRgbRoundTrip(m: Math, s: string)
    requires |s| in {7, 9} && s[0] == 'c' && AllLowerHex(s[1..])
    ensures Parse(m, s).Returns? && Parse(m, s).value.Some?
    ensures var c := Parse(m, s).value.value;
      && c.enableWhite == (|s| == 9)
      && c.tag == (if |s| == 9 then RgbwTag else RgbTag)
      && ToString(c, None) == s
  {
    assert s[1..|s|] == s[1..];
    LowerHexSlice(s, 1, |s|, 1, |s| - 1);
    LowerHexSlice(s, 1, |s|, 1, 2);
    LowerHexSlice(s, 1, |s|, 3, 2);
    LowerHexSlice(s, 1, |s|, 5, 2);
    FieldRoundTrip(s, 1, 2);
    FieldRoundTrip(s, 3, 2);
    FieldRoundTrip(s, 5, 2);
    if |s| == 9 {
      LowerHexSlice(s, 1, |s|, 7, 2);
      FieldRoundTrip(s, 7, 2);
    }
    ParseRgbShape(m, s);
    var c := Parse(m, s).value.value;
    RgbWord(c, s);
  }

  /** A lower-case 'h' word of 10 characters, or of 11 ending in 'w', whose
      hue field is at most 0x168 (360) parses to an HSI colour, with white
      enabled exactly for the 11-character form, that encodes back to the
      same word. */
  lemma ParseHsiRoundTrip(m: Math, s: string)
    requires (|s| == 10 || (|s| == 11 && s[10] == 'w')) && s[0] == 'h'
    requires AllLowerHex(s[1..10]) && AllHex(s[1..4]) && HexValue(s[1..4]) <= 360
    ensures Parse(m, s).Returns? && Parse(m, s).value.Some?
    ensures var c := Parse(m, s).value.value;
      && c.enableWhite == (|s| == 11)
      && c.tag == HsiTag
      && ToString(c, None) == s
  {
    ParseHsiShape(m, s);
    HsiFieldsText(m, s);
  }

  /** The colour built from the fields of an 'h' word encodes as that word. */
  lemma HsiFieldsText(m: Math, s: string)
    requires (|s| == 10 || (|s| == 11 && s[10] == 'w')) && s[0] == 'h'
    requires AllLowerHex(s[1..10]) && AllHex(s[1..4]) && AllHex(s[4..7]) && AllHex(s[7..10])
    requires HexValue(s[1..4]) <= 360
    ensures ToString(FromHsi(m, Field(s, 1, 3), Field(s, 4, 3) / 255.0, Field(s, 7, 3) / 255.0, |s| == 11), None) == s
  {
    LowerHexSlice(s, 1, 10, 1, 3);
    LowerHexSlice(s, 1, 10, 4, 3);
    LowerHexSlice(s, 1, 10, 7, 3);
    FieldRoundTrip(s, 1, 3);
    ScaledFieldRoundTrip(s, 4);
    ScaledFieldRoundTrip(s, 7);
    var h := Field(s, 1, 3);
    assert EncodedHue(h) == h;
    HsiWord(FromHsi(m, h, Field(s, 4, 3) / 255.0, Field(s, 7, 3) / 255.0, |s| == 11), s);
  }

  /** A saturation or intensity field, divided by 255 on `parse` and
      multiplied back on `toString`, is unchanged. */
  lemma ScaledFieldRoundTrip(s: string, i: nat)
    requires i + 3 <= |s| && AllLowerHex(s[i..i + 3])
    ensures AllHex(s[i..i + 3]) && FormatHex(Round(Field(s, i, 3) / 255.0 * 255.0), 3) == s[i..i + 3]
  {
    FieldRoundTrip(s, i, 3);
    assert Field(s, i, 3) / 255.0 * 255.0 == Field(s, i, 3);
  }

  /** What `parse` builds from an 'h' word of the right length with
      lower-case hex fields. */
  lemma ParseHsiShape(m: Math, s: string)
    requires (|s| == 10 || (|s| == 11 && s[10] == 'w')) && s[0] == 'h' && AllLowerHex(s[1..10])
    ensures AllHex(s[1..4]) && AllHex(s[4..7]) && AllHex(s[7..10])
    ensures Parse(m, s) == Returns(Some(
      FromHsi(m, Field(s, 1, 3), Field(s, 4, 3) / 255.0, Field(s, 7, 3) / 255.0, |s| == 11)))
  {
    assert s[1..10][8] == s[9];
    assert AllHex(s[1..10]);
    AllHexSlice(s, 1, 10, 1, 3);
    AllHexSlice(s, 1, 10, 4, 3);
    AllHexSlice(s, 1, 10, 7, 3);
  }

  /** An encodable HSI encoding has the shape `parse` reads back. */
  lemma HsiEncodingIsWord(c: Color, force: Option<Tag>)
    requires EffectiveTag(c.tag, force) == HsiTag && Encodable(c, force)
    ensures var s := ToString(c, force);
      && (|s| == 10 || (|s| == 11 && s[10] == 'w')) && s[0] == 'h'
      && AllLowerHex(s[1..10]) && AllHex(s[1..4]) && HexValue(s[1..4]) <= 360
  {
    RoundBetween(EncodedHue(c.hue), 0, 360);
    HsiEncoding(c, force);
    HsiTextShape(Round(EncodedHue(c.hue)), Round(c.saturation * 255.0), Round(c.intensity * 255.0), c.enableWhite);
  }

  /** The layout of an HSI word whose fields fit in three digits. */
  lemma HsiTextShape(h: int, sat: int, inten: int, white: bool)
    requires 0 <= h <= 360 && 0 <= sat < 4096 && 0 <= inten < 4096
    ensures var s := HsiText(h, sat, inten, white);
      && (|s| == 10 || (|s| == 11 && s[10] == 'w')) && s[0] == 'h'
      && AllLowerHex(s[1..10]) && AllHex(s[1..4]) && HexValue(s[1..4]) <= 360
  {
    Pow16Widths();
    FormatHexRoundTrip(h, 3);
    FormatHexRoundTrip(sat, 3);
    FormatHexRoundTrip(inten, 3);
    HWord(FormatHex(h, 3), FormatHex(sat, 3), FormatHex(inten, 3), if white then "w" else "");
  }

  /** The layout of an 'h' word built from three 3-digit fields. */
  lemma HWord(a: string, b: string, d: string, tail: string)
    requires |a| == 3 && |b| == 3 && |d| == 3 && (tail == "" || tail == "w")
    requires AllLowerHex(a) && AllLowerHex(b) && AllLowerHex(d)
    ensures var s := "h" + a + b + d + tail;
      && (|s| == 10 || (|s| == 11 && s[10] == 'w')) && s[0] == 'h'
      && s[1..4] == a && AllLowerHex(s[1..10])
  {
    var s := "h" + a + b + d + tail;
    assert s[1..4] == a;
    assert s[1..10] == a + b + d;
    assert forall i :: 0 <= i < 9 ==> (a + b + d)[i] == (if i < 3 then a[i] else if i < 6 then b[i - 3] else d[i - 6]);
  }

  /** A two-digit field as `toString` writes it for a value below 256. */
  lemma ByteField(x: Channel)
    requires Round(x) < 256
    ensures |FormatHex(Round(x), 2)| == 2 && AllLowerHex(FormatHex(Round(x), 2))
  {
    Pow16Widths();
    FormatHexRoundTrip(Round(x), 2);
  }

  lemma CWord(fields: seq<string>)
    requires |fields| in {3, 4}
    requires forall k :: 0 <= k < |fields| ==> |fields[k]| == 2 && AllLowerHex(fields[k])
    ensures var s := "c" + fields[0] + fields[1] + fields[2] + (if |fields| == 4 then fields[3] else "");
      |s| in {7, 9} && s[0] == 'c' && AllLowerHex(s[1..])
  {
    var s := "c" + fields[0] + fields[1] + fields[2] + (if |fields| == 4 then fields[3] else "");
    assert forall k :: 1 <= k < |s| ==> s[k] == fields[(k - 1) / 2][(k - 1) % 2];
  }

  /** An encodable RGB[W] encoding has the shape `parse` reads back. */
  lemma RgbEncodingIsWord(c: Color, force: Option<Tag>)
    requires EffectiveTag(c.tag, force) != HsiTag && Encodable(c, force)
    ensures var s := ToString(c, force);
      |s| in {7, 9} && s[0] == 'c' && AllLowerHex(s[1..])
  {
    ByteField(c.red);
    ByteField(c.green);
    ByteField(c.blue);
    var fields := [FormatHex(Round(c.red), 2), FormatHex(Round(c.green), 2), FormatHex(Round(c.blue), 2)];
    if EffectiveTag(c.tag, force) == RgbwTag {
      ByteField(WhiteOrZero(White(c)));
      fields := fields + [FormatHex(Round(WhiteOrZero(White(c))), 2)];
    }
    CWord(fields);
  }

  /** `parse(toString(c))` succeeds and gives a colour equal to c under
      `__eq__` (for a forced mode: one that encodes as c did), whenever the
      fields fit their widths. */
  lemma EncodeDecodeRoundTrip(m: Math, c: Color, force: Option<Tag>)
    requires Encodable(c, force)
    ensures Parse(m, ToString(c, force)).Returns? && Parse(m, ToString(c, force)).value.Some?
    ensures ToString(Parse(m, ToString(c, force)).value.value, None) == ToString(c, force)
  {
    if EffectiveTag(c.tag, force) == HsiTag {
      HsiEncodingIsWord(c, force);
      ParseHsiRoundTrip(m, ToString(c, force));
    } else {
      RgbEncodingIsWord(c, force);
      ParseRgbRoundTrip(m, ToString(c, force));
    }
  }

  lemma HexOfZero()
    ensures FormatHex(Round(0.0), 2) == "00" && FormatHex(Round(0.0), 3) == "000"
  {
    RoundOfInteger(0);
  }

  /** `copy()` keeps the encoding of an RGBW colour and of a white-enabled
      HSI colour; because every copy has white enabled, a copy of an RGB
      colour gains a "00" white field and a copy of a white-disabled HSI
      colour gains the trailing 'w'. */
  lemma CopyEncoding(m: Math, c: Color)
    ensures ToString(Copy(m, c, None), None) == ToString(c, None) +
      (match c.tag
       case RgbTag => "00"
       case RgbwTag => ""
       case HsiTag => if c.enableWhite then "" else "w")
  {
    match c.tag
    case RgbTag => CopyRgbEncoding(m, c);
    case RgbwTag => CopyRgbwEncoding(m, c);
    case HsiTag => CopyHsiEncoding(m, c);
  }

  lemma CopyRgbEncoding(m: Math, c: Color)
    requires c.tag == RgbTag
    ensures ToString(Copy(m, c, None), None) == ToString(c, None) + "00"
  {
    var r := Copy(m, c, None);
    HexOfZero();
    assert EffectiveTag(r.tag, None) == RgbwTag && White(r) == None;
    assert ToString(r, None) == RgbText(Round(c.red), Round(c.green), Round(c.blue)) + FormatHex(Round(0.0), 2);
  }

  lemma CopyRgbwEncoding(m: Math, c: Color)
    requires c.tag == RgbwTag
    ensures ToString(Copy(m, c, None), None) == ToString(c, None)
  {
    var r := Copy(m, c, None);
    assert EffectiveTag(r.tag, None) == RgbwTag && White(r) == White(c);
  }

  lemma CopyHsiEncoding(m: Math, c: Color)
    requires c.tag == HsiTag
    ensures ToString(Copy(m, c, None), None) == ToString(c, None) + (if c.enableWhite then "" else "w")
  {
    assert EffectiveTag(c.tag, None) == HsiTag;
    WhiteEnabledText(c, Copy(m, c, None));
  }

  /** Enabling white on an HSI colour appends 'w' to its encoding. */
  lemma WhiteEnabledText(c: Color, r: Color)
    requires c.tag == HsiTag && r.tag == HsiTag && r.enableWhite
    requires r.hue == c.hue && r.saturation == c.saturation && r.intensity == c.intensity
    ensures ToString(r, None) == ToString(c, None) + (if c.enableWhite then "" else "w")
  {
    var h, sat, inten := Round(EncodedHue(c.hue)), Round(c.saturation * 255.0), Round(c.intensity * 255.0);
    HsiEncoding(r, None);
    HsiEncoding(c, None);
    HsiTextWhite(h, sat, inten, c.enableWhite);
  }

  /** The encoding of an HSI colour in terms of its rounded fields. */
  lemma HsiEncoding(c: Color, force: Option<Tag>)
    requires EffectiveTag(c.tag, force) == HsiTag
    ensures ToString(c, force) ==
      HsiText(Round(EncodedHue(c.hue)), Round(c.saturation * 255.0), Round(c.intensity * 255.0), c.enableWhite)
  {
  }

  /** The white-enabled HSI word extends the word with the same fields. */
  lemma HsiTextWhite(h: int, s: int, i: int, white: bool)
    ensures HsiText(h, s, i, true) == HsiText(h, s, i, white) + (if white then "" else "w")
  {
  }

  /** While white is disabled the `white` property reads None, whatever
      `_white` holds or is set to, and an RGBW encoding writes white 0;
      enabling white again exposes the stored value. */
  lemma WhiteHiddenWhileDisabled(m: Math, c: Color, v: Option<Channel>)
    requires !c.enableWhite && c.tag != RgbTag
    ensures White(c) == None && White(SetWhite(m, c, v)) == None
    ensures ToString(c, Some(RgbwTag)) == ToString(c, Some(RgbTag)) + "00"
    ensures White(SetEnableWhite(c, true)) == c.storedWhite
  {
    HexOfZero();
  }

  /** The `enableWhite` setter recomputes nothing, so it can leave the two
      representations out of step: an HSI colour built without white has
      no stored white, which the white-enabled conversion would supply. */
  lemma EnableWhiteCanDesync(m: Math)
    ensures Synced(m, FromHsi(m, 0.0, 1.0, 1.0, false))
    ensures !Synced(m, SetEnableWhite(FromHsi(m, 0.0, 1.0, 1.0, false), true))
  {
  }

  lemma HexOf360()
    ensures FormatHex(360, 3) == "168"
  {
    assert Hex(1) == "1";
    assert Hex(22) == "16";
    assert Hex(360) == "168";
  }

  /** HSI encoding rounds after the wrap, so a hue just under a full turn
      is written as 0x168, which parses back as hue 360. */
  lemma HueRoundsAfterWrap(c: Color)
    requires c.tag == HsiTag && c.hue == 359.6
    ensures ToString(c, None)[1..4] == "168"
  {
    assert Round(359.6) == 360;
    HexOf360();
  }

  /** Two HSI colours with the same encoded hue, saturation, intensity and
      white flag are equal under `__eq__`. */
  lemma SameHsiFields(a: Color, b: Color)
    requires a.tag == HsiTag && b.tag == HsiTag && a.enableWhite == b.enableWhite
    requires EncodedHue(a.hue) == EncodedHue(b.hue)
    requires a.saturation == b.saturation && a.intensity == b.intensity
    ensures Eq(a, b)
  {
    HsiEncoding(a, None);
    HsiEncoding(b, None);
  }

  /** The hue field of an HSI encoding. */
  lemma HueField(c: Color)
    requires c.tag == HsiTag
    ensures ToString(c, None)[1..4] == FormatHex(Round(EncodedHue(c.hue)), 3)
  {
    var h := Round(EncodedHue(c.hue));
    RoundBetween(EncodedHue(c.hue), 0, 360);
    assert EffectiveTag(c.tag, None) == HsiTag;
    HsiTextHue(h, Round(c.saturation * 255.0), Round(c.intensity * 255.0), c.enableWhite);
  }

  /** Characters 1 to 3 of an HSI word are the hue field. */
  lemma HsiTextHue(h: int, s: int, i: int, white: bool)
    requires 0 <= h < 4096
    ensures HsiText(h, s, i, white)[1..4] == FormatHex(h, 3)
  {
    Pow16Widths();
    FormatHexRoundTrip(h, 3);
    var t := HsiText(h, s, i, white);
    assert t == "h" + FormatHex(h, 3) + (FormatHex(s, 3) + FormatHex(i, 3) + (if white then "w" else ""));
  }

  /** `__eq__` compares encodings, so hues a whole turn apart are equal. */
  lemma EqualityModuloTurns(m: Math, c: Color, h: real)
    requires h != 0.0 && h != 360.0
    ensures Eq(SetHue(m, c, h), SetHue(m, c, h + 360.0))
  {
    FloorMod360Periodic(h);
    SameHsiFields(SetHue(m, c, h), SetHue(m, c, h + 360.0));
  }

  /** A hue of exactly 360 keeps its own encoding, so it is not equal to
      hue 0 under `__eq__`. */
  lemma FullTurnNotZero(m: Math, c: Color)
    ensures !Eq(SetHue(m, c, 0.0), SetHue(m, c, 360.0))
  {
    var zero, full := SetHue(m, c, 0.0), SetHue(m, c, 360.0);
    HueField(zero);
    HueField(full);
    HexOf360();
    HexOfZero();
    RoundOfInteger(360);
    assert ToString(zero, None)[1..4] == "000";
    assert ToString(full, None)[1..4] == "168";
  }
}

=== FILE: convert.dfy ===
/** The four colour-space converters of ColorSolid (rgb2hsi, rgbw2hsi,
    hsi2rgb, hsi2rgbw) with their rational skeleton written out exactly:
    normalisation, the saturation and intensity formulas, the early-return
    cases, the hue wrap, the input clamps and the output clamps. The
    transcendental terms come from a `Math` record the caller supplies, so
    every property proved here holds whatever those functions compute. */
module Convert {
  import opened Basics

  /** Python's `math.pi` and `sqrt(3)` as decimal literals of the doubles. */
  const Pi: real := 3.141592653589793
  const Sqrt3: real := 1.7320508075688772

  /** The math-library calls the converters make: `sqrt`, `acos`, `atan`,
      and the hsi2rgb sector term `cos(h) / cos(pi/3 - h)` of an angle h in
      radians. */
  datatype Math = Math(
    sqrt: real -> real,
    acos: real -> real,
    atan: real -> real,
    sectorRatio: real -> real)

  /** An LED channel level; the model keeps every channel non-negative,
      which is what keeps rgbw2hsi's divisions defined. */
  type Channel = x: real | 0.0 <= x

  datatype Hsi = Hsi(hue: real, saturation: real, intensity: real)
  datatype Rgb = Rgb(red: Channel, green: Channel, blue: Channel)
  datatype Rgbw = Rgbw(red: Channel, green: Channel, blue: Channel, white: Channel)

  /** The acos hue in radians shared by rgb2hsi and rgbw2hsi, with the
      source's `* sqrt(...)` kept as written. */
  function AcosHue(m: Math, r: real, g: real, b: real): real {
    m.acos((r - g + r - b) / 2.0 * m.sqrt((r - g) * (r - g) + (r - b) * (g - b)))
  }

  /** 1 - min/mean of three 0..1 channels, and 0 for black: rgb2hsi's
      saturation, which rgbw2hsi reuses when no channel is dark (there the
      mean is written (red + green + blue) / (255 * 3), the same number). */
  function MeanSaturation(r: real, g: real, b: real): real {
    var mean := (r + g + b) / 3.0;
    if mean == 0.0 then 0.0 else 1.0 - Min3(r, g, b) / mean
  }

  /** The arctangent hue in radians rgbw2hsi uses when exactly one channel
      is dark; x is the lit channel it divides by and y the other. */
  function AtanHue(m: Math, x: real, y: real): real
    requires x != 0.0
  {
    2.0 * m.atan((2.0 * m.sqrt(x * x - x * y + y * y) - 2.0 * y + x) / (Sqrt3 * x))
  }

  /** rgb2hsi on 0..255 channels. Saturation is 1 - min/mean on the 0..1
      scale (0 for black); the returned intensity is the SUM r + g + b on
      the 0..1 scale, overwriting the mean computed first. */
  function RgbToHsi(m: Math, red: Channel, green: Channel, blue: Channel): (h: Hsi)
    ensures h.intensity == (red + green + blue) / 255.0
    ensures red == green == blue ==> h.hue == 0.0 && h.saturation == 0.0
  {
    var r := red / 255.0;
    var g := green / 255.0;
    var b := blue / 255.0;
    var minimum := Min3(r, g, b);
    var maximum := Max3(r, g, b);
    var saturation := MeanSaturation(r, g, b);
    var angle := AcosHue(m, r, g, b);
    var angle' := if b > g then 2.0 * Pi - angle else angle;
    var angle'' := if minimum == maximum then 0.0 else angle';
    Hsi(angle'' * 180.0 / Pi, saturation, r + g + b)
  }

  /** The white value rgbw2hsi works with: a missing white counts as 0. */
  function WhiteOrZero(white: Option<Channel>): Channel {
    if white.Some? then white.value else 0.0
  }

  /** rgbw2hsi: falls back to rgb2hsi without white; otherwise saturation
      is the coloured share of all light and intensity is the total over
      255, with fixed hues when at most one channel is lit and the
      arctangent formulas when exactly one channel is dark. */
  function RgbwToHsi(m: Math, red: Channel, green: Channel, blue: Channel, white: Option<Channel>): (h: Hsi)
    ensures WhiteOrZero(white) == 0.0 ==> h == RgbToHsi(m, red, green, blue)
    ensures WhiteOrZero(white) > 0.0 ==> h.intensity == (red + green + blue + WhiteOrZero(white)) / 255.0
    ensures WhiteOrZero(white) > 0.0 && (red == 0.0 || green == 0.0 || blue == 0.0) ==>
      h.saturation == (red + green + blue) / (red + green + blue + WhiteOrZero(white))
    ensures WhiteOrZero(white) > 0.0 && red != 0.0 && green != 0.0 && blue != 0.0 ==>
      h.saturation == RgbToHsi(m, red, green, blue).saturation * (255.0 - WhiteOrZero(white)) / 255.0
    ensures WhiteOrZero(white) > 0.0 ==>
      && (red == 0.0 && green == 0.0 ==> h.hue == (if blue == 0.0 then 0.0 else 240.0))
      && (red != 0.0 && green == 0.0 && blue == 0.0 ==> h.hue == 0.0)
      && (red == 0.0 && green != 0.0 && blue == 0.0 ==> h.hue == 120.0)
  {
    var w := WhiteOrZero(white);
    if w == 0.0 then RgbToHsi(m, red, green, blue)
    else
      var saturation := (red + green + blue) / (red + green + blue + w);
      var intensity := (red + green + blue + w) / 255.0;
      if red == 0.0 && green == 0.0 && blue == 0.0 then Hsi(0.0, saturation, intensity)
      else if red == 0.0 && green == 0.0 then Hsi(240.0, saturation, intensity)
      else if green == 0.0 && blue == 0.0 then Hsi(0.0, saturation, intensity)
      else if blue == 0.0 && red == 0.0 then Hsi(120.0, saturation, intensity)
      else if red == 0.0 then Hsi((AtanHue(m, blue, green) + 2.0 / 3.0 * Pi) * 180.0 / Pi, saturation, intensity)
      else if green == 0.0 then Hsi((AtanHue(m, red, blue) + 4.0 / 3.0 * Pi) * 180.0 / Pi, saturation, intensity)
      else if blue == 0.0 then Hsi(AtanHue(m, green, red) * 180.0 / Pi, saturation, intensity)
      else
        var r := red / 255.0;
        var g := green / 255.0;
        var b := blue / 255.0;
        var angle := AcosHue(m, r, g, b);
        var angle' := if blue > green then 2.0 * Pi - angle else angle;
        Hsi(angle' * 180.0 / Pi, MeanSaturation(r, g, b) * (255.0 - w) / 255.0, intensity)
  }

  /** Which third of the colour wheel the converters use for a hue in
      degrees, after the wrap modulo 360. */
  function Sector(hue: real): (k: nat)
    ensures k < 3
    ensures k == 0 <==> FloorMod360(hue) < 120.0
    ensures k == 2 <==> 240.0 <= FloorMod360(hue)
  {
    var h := FloorMod360(hue);
    if h < 120.0 then 0 else if h < 240.0 then 1 else 2
  }

  /** A chromatic channel of the HSI converters, s i / 3 x 255, clamped. */
  function Chromatic(s: real, i: real, x: real): (c: Channel)
    ensures c <= 255.0
  {
    Clamp(s * i / 3.0 * x * 255.0, 255.0)
  }

  /** hsi2rgb. The hue is wrapped modulo 360 and read in radians; s is
      clamped to [0, 1] and i to [0, 3]; in each third one channel is the
      achromatic term i/3 (1 - s) 255 and the other two carry the sector
      term; each channel is clamped to [0, 255]. As written the two
      chromatic terms carry an extra leading factor s. */
  function HsiToRgb(m: Math, hue: real, saturation: real, intensity: real): (c: Rgb)
    ensures c.red <= 255.0 && c.green <= 255.0 && c.blue <= 255.0
  {
    RgbOnWheel(m, FloorMod360(hue), Clamp(saturation, 1.0), Clamp(intensity, 3.0))
  }

  /** hsi2rgb after its hue wrap and input clamps. */
  function RgbOnWheel(m: Math, h: real, s: real, i: real): (c: Rgb)
    ensures c.red <= 255.0 && c.green <= 255.0 && c.blue <= 255.0
  {
    var rad := Pi * h / 180.0;
    var grey := Clamp(i / 3.0 * (1.0 - s) * 255.0, 255.0);
    if rad < 2.0 / 3.0 * Pi then
      var q := m.sectorRatio(rad);
      Rgb(Chromatic(s, i, 1.0 + s * q), Chromatic(s, i, 1.0 + s * (1.0 - q)), grey)
    else if rad < 4.0 / 3.0 * Pi then
      var q := m.sectorRatio(rad - 2.0 / 3.0 * Pi);
      Rgb(grey, Chromatic(s, i, 1.0 + s * q), Chromatic(s, i, 1.0 + s * (1.0 - q)))
    else
      var q := m.sectorRatio(rad - 4.0 / 3.0 * Pi);
      Rgb(Chromatic(s, i, 1.0 + s * (1.0 - q)), grey, Chromatic(s, i, 1.0 + s * q))
  }

  /** hsi2rgbw. As hsi2rgb, but i is clamped to [0, 4], the chromatic terms
      have no inner factor s, the third channel of each sector is 0, and
      white is (1 - s) i 255; all four are clamped to [0, 255]. */
  function HsiToRgbw(m: Math, hue: real, saturation: real, intensity: real): (c: Rgbw)
    ensures c.red <= 255.0 && c.green <= 255.0 && c.blue <= 255.0 && c.white <= 255.0
  {
    RgbwOnWheel(m, FloorMod360(hue), Clamp(saturation, 1.0), Clamp(intensity, 4.0))
  }

  /** hsi2rgbw after its hue wrap and input clamps. */
  function RgbwOnWheel(m: Math, h: real, s: real, i: real): (c: Rgbw)
    ensures c.red <= 255.0 && c.green <= 255.0 && c.blue <= 255.0 && c.white <= 255.0
  {
    var rad := Pi * h / 180.0;
    var w := Clamp((1.0 - s) * i * 255.0, 255.0);
    if rad < 2.0 / 3.0 * Pi then
      var q := m.sectorRatio(rad);
      Rgbw(Chromatic(s, i, 1.0 + q), Chromatic(s, i, 1.0 + (1.0 - q)), 0.0, w)
    else if rad < 4.0 / 3.0 * Pi then
      var q := m.sectorRatio(rad - 2.0 / 3.0 * Pi);
      Rgbw(0.0, Chromatic(s, i, 1.0 + q), Chromatic(s, i, 1.0 + (1.0 - q)), w)
    else
      var q := m.sectorRatio(rad - 4.0 / 3.0 * Pi);
      Rgbw(Chromatic(s, i, 1.0 + (1.0 - q)), 0.0, Chromatic(s, i, 1.0 + q), w)
  }

  /** The converters' sector tests on radians are the tests on degrees. */
  lemma RadianThirds(hue: real)
    ensures (Pi * FloorMod360(hue) / 180.0 < 2.0 / 3.0 * Pi) <==> Sector(hue) == 0
    ensures (Pi * FloorMod360(hue) / 180.0 < 4.0 / 3.0 * Pi) <==> Sector(hue) != 2
  {
  }

  /** On 0..255 channels rgb2hsi's saturation lies in [0, 1] and is 0
      exactly for greys, and its intensity (a sum) lies in [0, 3]. */
  lemma RgbToHsiRanges(m: Math, red: Channel, green: Channel, blue: Channel)
    requires red <= 255.0 && green <= 255.0 && blue <= 255.0
    ensures 0.0 <= RgbToHsi(m, red, green, blue).saturation <= 1.0
    ensures 0.0 <= RgbToHsi(m, red, green, blue).intensity <= 3.0
    ensures RgbToHsi(m, red, green, blue).saturation == 0.0 <==> red == green == blue
  {
    var r, g, b := red / 255.0, green / 255.0, blue / 255.0;
    var minimum := Min3(r, g, b);
    var mean := (r + g + b) / 3.0;
    if mean != 0.0 {
      assert 0.0 <= minimum <= mean;
      MinOverMean(minimum, mean);
      if minimum == mean {
        assert r == g == b;
      }
    }
  }

  lemma MinOverMean(part: real, whole: real)
    requires 0.0 <= part <= whole && whole > 0.0
    ensures 0.0 <= part / whole <= 1.0
    ensures part / whole == 1.0 <==> part == whole
  {
  }

  /** On 0..255 channels with a 0..255 white, rgbw2hsi's saturation lies in
      [0, 1] and its intensity in [0, 4]. */
  lemma RgbwToHsiRanges(m: Math, red: Channel, green: Channel, blue: Channel, white: Option<Channel>)
    requires red <= 255.0 && green <= 255.0 && blue <= 255.0 && WhiteOrZero(white) <= 255.0
    ensures 0.0 <= RgbwToHsi(m, red, green, blue, white).saturation <= 1.0
    ensures 0.0 <= RgbwToHsi(m, red, green, blue, white).intensity <= 4.0
  {
    RgbToHsiRanges(m, red, green, blue);
    var w := WhiteOrZero(white);
    if w > 0.0 {
      var sum := red + green + blue;
      MinOverMean(sum, sum + w);
      if red != 0.0 && green != 0.0 && blue != 0.0 {
        var rgbSat := RgbToHsi(m, red, green, blue).saturation;
        var scale := (255.0 - w) / 255.0;
        ScaleUnit(rgbSat, scale);
        assert rgbSat * (255.0 - w) / 255.0 == rgbSat * scale;
        assert RgbwToHsi(m, red, green, blue, white).saturation == rgbSat * scale;
      }
    }
  }

  /** With white present and every channel lit, rgbw2hsi's hue is
      rgb2hsi's, grey included. */
  lemma RgbwToHsiLitHue(m: Math, red: Channel, green: Channel, blue: Channel, white: Option<Channel>)
    requires WhiteOrZero(white) > 0.0 && red != 0.0 && green != 0.0 && blue != 0.0
    ensures RgbwToHsi(m, red, green, blue, white).hue ==
      if red == green == blue then AcosHue(m, red / 255.0, green / 255.0, blue / 255.0) * 180.0 / Pi
      else RgbToHsi(m, red, green, blue).hue
  {
    var r, g, b := red / 255.0, green / 255.0, blue / 255.0;
    if !(red == green == blue) {
      assert !(r == g == b);
      assert Min3(r, g, b) != Max3(r, g, b);
    }
  }

  lemma ScaleUnit(a: real, b: real)
    requires 0.0 <= a <= 1.0 && 0.0 <= b <= 1.0
    ensures 0.0 <= a * b <= 1.0
  {
    MulMono(a, b, 1.0);
    MulNonNeg(a, b);
    assert a * 1.0 == a;
    assert a * b <= a;
  }

  /** hsi2rgb sees the hue only modulo a whole turn. */
  lemma HsiToRgbPeriodic(m: Math, hue: real, saturation: real, intensity: real)
    ensures HsiToRgb(m, hue + 360.0, saturation, intensity) == HsiToRgb(m, hue, saturation, intensity)
  {
    FloorMod360Periodic(hue);
  }

  /** hsi2rgb sees s and i only through its input clamps. */
  lemma HsiToRgbClampsInputs(m: Math, hue: real, saturation: real, intensity: real)
    ensures HsiToRgb(m, hue, saturation, intensity)
         == HsiToRgb(m, hue, Clamp(saturation, 1.0), Clamp(intensity, 3.0))
  {
  }

  lemma HsiToRgbwClampsInputs(m: Math, hue: real, saturation: real, intensity: real)
    ensures HsiToRgbw(m, hue, saturation, intensity)
         == HsiToRgbw(m, hue, Clamp(saturation, 1.0), Clamp(intensity, 4.0))
  {
  }

  /** As written, hsi2rgb of an unsaturated colour lights only the sector's
      achromatic channel (blue, red or green by third), at level 85 i. */
  lemma HsiToRgbUnsaturated(m: Math, hue: real, saturation: real, intensity: real)
    requires saturation <= 0.0
    ensures var c := HsiToRgb(m, hue, saturation, intensity);
      var level := Clamp(intensity, 3.0) * 85.0;
      && (Sector(hue) == 0 ==> c == Rgb(0.0, 0.0, level))
      && (Sector(hue) == 1 ==> c == Rgb(level, 0.0, 0.0))
      && (Sector(hue) == 2 ==> c == Rgb(0.0, level, 0.0))
  {
    RadianThirds(hue);
  }

  /** Zero intensity gives black from both HSI converters. */
  lemma HsiDarkIsBlack(m: Math, hue: real, saturation: real, intensity: real)
    requires intensity <= 0.0
    ensures HsiToRgb(m, hue, saturation, intensity) == Rgb(0.0, 0.0, 0.0)
    ensures HsiToRgbw(m, hue, saturation, intensity) == Rgbw(0.0, 0.0, 0.0, 0.0)
  {
  }

  /** hsi2rgbw leaves one colour channel dark in each third of the wheel:
      blue in the first, red in the second, green in the third. */
  lemma HsiToRgbwDarkChannel(m: Math, hue: real, saturation: real, intensity: real)
    ensures var c := HsiToRgbw(m, hue, saturation, intensity);
      && (Sector(hue) == 0 ==> c.blue == 0.0)
      && (Sector(hue) == 1 ==> c.red == 0.0)
      && (Sector(hue) == 2 ==> c.green == 0.0)
  {
    RadianThirds(hue);
  }

  /** hsi2rgbw's white is the unsaturated share: none at full saturation,
      and all of the light (with every colour channel dark) at none. */
  lemma HsiToRgbwWhiteShare(m: Math, hue: real, saturation: real, intensity: real)
    ensures saturation >= 1.0 ==> HsiToRgbw(m, hue, saturation, intensity).white == 0.0
    ensures saturation <= 0.0 ==>
      HsiToRgbw(m, hue, saturation, intensity) == Rgbw(0.0, 0.0, 0.0, Clamp(Clamp(intensity, 4.0) * 255.0, 255.0))
  {
  }

  /** hsi2rgbw sees the hue only modulo a whole turn. */
  lemma HsiToRgbwPeriodic(m: Math, hue: real, saturation: real, intensity: real)
    ensures HsiToRgbw(m, hue + 360.0, saturation, intensity) == HsiToRgbw(m, hue, saturation, intensity)
  {
    FloorMod360Periodic(hue);
  }
}

=== FILE: gradient.dfy ===
/** ColorGradient: a list of node colours, the number of steps between each
    consecutive pair, the interpolation mode, and the generated gradient,
    plus its descriptor-word codec "node,node,...;steps". Objects are
    immutable values here; each setter returns the updated gradient. */
module ColorGradient {
  import opened Basics
  import opened Text
  import opened Convert
  import opened ColorSolid
  import opened Interp

  /** What the `nodes` setter (and the constructor) may be handed: None, a
      bare ColorSolid, a list or tuple whose items are ColorSolids or not
      (None marks an item that is not one, such as a word `parse` turned
      away), or anything else. */
  datatype NodesArg = NoneArg | SolidArg(color: Color) | ListArg(items: seq<Option<Color>>) | OtherArg

  /** The `gradient` attribute: never assigned (the constructor was handed
      nodes its setter refused), or the last value `generate` returned.
      `Present(None)` (an unknown mode) and `Present(Some(NoNodes))` (None
      nodes) both stand for the same Python value, None. */
  datatype GradientAttr = Missing | Present(value: Option<Nodes>)

  /** A ColorGradient. `mode` is `interpMode`, a free string of which only
      "hsi" and "rgbw" select an interpolator. */
  datatype Gradient = Gradient(nodes: Nodes, steps: nat, mode: string, gradient: GradientAttr)

  /** The items of a list, when every one is a ColorSolid. */
  function AllColors(items: seq<Option<Color>>): (r: Option<seq<Color>>)
    ensures r.Some? <==> forall i :: 0 <= i < |items| ==> items[i].Some?
    ensures r.Some? ==> |r.value| == |items| && forall i :: 0 <= i < |items| ==> items[i] == Some(r.value[i])
  {
    if forall i :: 0 <= i < |items| ==> items[i].Some? then
      Some(seq(|items|, (i: int) requires 0 <= i < |items| => items[i].value))
    else None
  }

  /** The type test at the head of the `nodes` setter: None, a ColorSolid,
      and a list of ColorSolids are accepted; anything else is refused. */
  function Validate(arg: NodesArg): (r: Option<Nodes>)
    ensures r.None? <==> arg.OtherArg? || (arg.ListArg? && exists i :: 0 <= i < |arg.items| && arg.items[i].None?)
    ensures arg.NoneArg? ==> r == Some(NoNodes)
    ensures arg.SolidArg? ==> r == Some(Single(arg.color))
    ensures arg.ListArg? && r.Some? ==>
      && r.value.Many? && |r.value.colors| == |arg.items|
      && forall i :: 0 <= i < |arg.items| ==> arg.items[i] == Some(r.value.colors[i])
  {
    match arg
    case NoneArg => Some(NoNodes)
    case SolidArg(c) => Some(Single(c))
    case ListArg(items) => if AllColors(items).Some? then Some(Many(AllColors(items).value)) else None
    case OtherArg => None
  }

  /** An interpolator's outcome as `generate` returns it. */
  function Lift(o: Outcome<Nodes>): (r: Outcome<Option<Nodes>>)
    ensures r.Raises? <==> o.Raises?
    ensures o.Returns? ==> r == Returns(Some(o.value))
  {
    match o
    case Raises => Raises
    case Returns(v) => Returns(Some(v))
  }

  /** `generate()`: "hsi" and "rgbw" run their interpolator, any other mode
      gives None. It raises only where the interpolator takes the last
      node of an empty list. */
  function Generate(m: Math, nodes: Nodes, steps: nat, mode: string): (r: Outcome<Option<Nodes>>)
    ensures mode != "hsi" && mode != "rgbw" ==> r == Returns(None)
    ensures r.Raises? <==> (mode == "hsi" || mode == "rgbw") && nodes == Many([]) && steps >= 1
    ensures mode == "hsi" && r.Returns? ==> r == Returns(Some(LinearInterp(m, HsiSpace, nodes, steps).value))
    ensures mode == "rgbw" && r.Returns? ==> r == Returns(Some(LinearInterp(m, RgbwSpace, nodes, steps).value))
  {
    if mode == "hsi" then Lift(LinearInterp(m, HsiSpace, nodes, steps))
    else if mode == "rgbw" then Lift(LinearInterp(m, RgbwSpace, nodes, steps))
    else Returns(None)
  }

  /** The gradient attribute holds what `generate()` gives for the current
      nodes, steps and mode. */
  predicate Fresh(m: Math, g: Gradient) {
    g.gradient.Present? && Generate(m, g.nodes, g.steps, g.mode) == Returns(g.gradient.value)
  }

  /** The `nodes` setter: refused input leaves the gradient as it was;
      accepted input is stored and the gradient regenerated. */
  function SetNodes(m: Math, g: Gradient, arg: NodesArg): (r: Outcome<Gradient>)
    ensures Validate(arg).None? ==> r == Returns(g)
    ensures Validate(arg).Some? && r.Returns? ==>
      && r.value.nodes == Validate(arg).value && r.value.steps == g.steps && r.value.mode == g.mode
      && Fresh(m, r.value)
    ensures r.Raises? <==>
      Validate(arg) == Some(Many([])) && g.steps >= 1 && (g.mode == "hsi" || g.mode == "rgbw")
  {
    match Validate(arg)
    case None => Returns(g)
    case Some(nodes) =>
      match Generate(m, nodes, g.steps, g.mode)
      case Raises => Raises
      case Returns(v) => Returns(g.(nodes := nodes, gradient := Present(v)))
  }

  /** The `steps` setter: stores the count and regenerates. */
  function SetSteps(m: Math, g: Gradient, steps: nat): (r: Outcome<Gradient>)
    ensures r.Returns? ==>
      r.value.steps == steps && r.value.nodes == g.nodes && r.value.mode == g.mode && Fresh(m, r.value)
    ensures r.Raises? <==> g.nodes == Many([]) && steps >= 1 && (g.mode == "hsi" || g.mode == "rgbw")
  {
    match Generate(m, g.nodes, steps, g.mode)
    case Raises => Raises
    case Returns(v) => Returns(g.(steps := steps, gradient := Present(v)))
  }

  /** Assigning `interpMode`: a plain attribute, so nothing is regenerated. */
  function SetMode(g: Gradient, mode: string): (r: Gradient)
    ensures r.mode == mode && r.nodes == g.nodes && r.steps == g.steps && r.gradient == g.gradient
  {
    g.(mode := mode)
  }

  /** `ColorGradient(nodes, steps, interpMode)`: the fields start as None,
      steps and the mode, then the nodes go through their setter. */
  function New(m: Math, arg: NodesArg, steps: nat, mode: string): (r: Outcome<Gradient>)
    ensures r.Returns? ==> r.value.steps == steps && r.value.mode == mode
    ensures r.Returns? && Validate(arg).Some? ==> r.value.nodes == Validate(arg).value && Fresh(m, r.value)
    ensures Validate(arg).None? ==> r == Returns(Gradient(NoNodes, steps, mode, Missing))
  {
    SetNodes(m, Gradient(NoNodes, steps, mode, Missing), arg)
  }

  /** The node words, in order. */
  function Tokens(colors: seq<Color>): (t: seq<string>)
    ensures |t| == |colors|
    ensures forall i :: 0 <= i < |colors| ==> t[i] == ColorSolid.ToString(colors[i], None)
  {
    seq(|colors|, (i: int) requires 0 <= i < |colors| => ColorSolid.ToString(colors[i], None))
  }

  /** `toString()`: "" with no nodes; otherwise the node words joined by
      commas, ';', and the step count in decimal. A single bare ColorSolid
      cannot be iterated, so the call raises. */
  function ToString(g: Gradient): (r: Outcome<string>)
    ensures g.nodes.NoNodes? ==> r == Returns("")
    ensures r.Raises? <==> g.nodes.Single?
    ensures g.nodes.Many? ==> r.Returns? && ';' in r.value
  {
    match g.nodes
    case NoNodes => Returns("")
    case Single(_) => Raises
    case Many(colors) =>
      var s := Join(Tokens(colors), ',') + ";" + DecimalString(g.steps);
      assert s[|Join(Tokens(colors), ',')|] == ';';
      Returns(s)
  }

  /** Each word through ColorSolid's `parse`, failing as soon as one
      raises. */
  function ParseTokens(m: Math, tokens: seq<string>): (r: Outcome<seq<Option<Color>>>)
    ensures r.Raises? <==> exists i :: 0 <= i < |tokens| && ColorSolid.Parse(m, tokens[i]).Raises?
    ensures r.Returns? ==> |r.value| == |tokens| && forall i :: 0 <= i < |tokens| ==> ColorSolid.Parse(m, tokens[i]) == Returns(r.value[i])
  {
    if |tokens| == 0 then Returns([])
    else
      match ColorSolid.Parse(m, tokens[0])
      case Raises => Raises
      case Returns(first) =>
        match ParseTokens(m, tokens[1..])
        case Raises =>
          var i :| 0 <= i < |tokens[1..]| && ColorSolid.Parse(m, tokens[1..][i]).Raises?;
          assert ColorSolid.Parse(m, tokens[i + 1]).Raises?;
          Raises
        case Returns(rest) =>
          assert forall i :: 1 <= i < |tokens| ==> tokens[i] == tokens[1..][i - 1];
          Returns([first] + rest)
  }

  /** `ColorGradient.parse(s)`: every parenthesis is deleted, the text is
      cut at the first ';' (raising when there is none), the part before it
      is split at commas and each word parsed as a ColorSolid, the part
      after it read as the step count, and a gradient built in mode "hsi". */
  function Parse(m: Math, s: string): (r: Outcome<Gradient>)
    ensures r.Returns? ==> r.value.mode == "hsi"
    ensures r.Returns? ==> (r.value.nodes.NoNodes? <==> r.value.gradient.Missing?)
    ensures r.Returns? && r.value.nodes.Many? ==> |r.value.nodes.colors| >= 1 && Fresh(m, r.value)
    ensures ';' !in RemoveParens(s) ==> r.Raises?
  {
    match SplitOnce(RemoveParens(s), ';')
    case NoSeparator => Raises
    case Pair(before, after) =>
      match ParseTokens(m, Split(before, ','))
      case Raises => Raises
      case Returns(items) =>
        if !IsDecimal(after) then Raises
        else New(m, ListArg(items), DecimalValue(after), "hsi")
  }

  /** A node word is made of 'c', 'h', 'w' and lower-case hex digits. */
  predicate WordChar(ch: char) {
    ch == 'c' || ch == 'h' || ch == 'w' || IsLowerHexDigit(ch)
  }

  /** The word of an encodable colour holds no separator and no
      parenthesis. */
  lemma WordChars(c: Color)
    requires Encodable(c, None)
    ensures var s := ColorSolid.ToString(c, None);
      forall i :: 0 <= i < |s| ==> WordChar(s[i])
  {
    var s := ColorSolid.ToString(c, None);
    if EffectiveTag(c.tag, None) == HsiTag {
      HsiEncodingIsWord(c, None);
      assert forall i :: 1 <= i < 10 ==> s[i] == s[1..10][i - 1];
    } else {
      RgbEncodingIsWord(c, None);
      assert forall i :: 1 <= i < |s| ==> s[i] == s[1..][i - 1];
    }
  }

  /** Cutting at the first separator of `pre + sep + post`, when pre holds
      none, gives pre and post back. */
  lemma {:induction false} SplitOnceAt(pre: string, post: string, sep: char)
    requires sep !in pre
    ensures SplitOnce(pre + [sep] + post, sep) == Pair(pre, post)
  {
    var s := pre + [sep] + post;
    if |pre| > 0 {
      assert s[1..] == pre[1..] + [sep] + post;
      SplitOnceAt(pre[1..], post, sep);
      assert [pre[0]] + pre[1..] == pre;
    } else {
      assert s[1..] == post;
    }
  }

  /** A decimal numeral holds no separator and no parenthesis. */
  lemma DecimalChars(n: nat)
    ensures var d := DecimalString(n);
      ';' !in d && ',' !in d && '(' !in d && ')' !in d
  {
    var d := DecimalString(n);
    assert forall i :: 0 <= i < |d| ==> IsDecimalDigit(d[i]);
  }

  /** The encoding of a gradient of encodable nodes, after `parse`: the
      words, split and read back. */
  lemma TextShape(g: Gradient)
    requires g.nodes.Many? && |g.nodes.colors| >= 1
    requires forall i :: 0 <= i < |g.nodes.colors| ==> Encodable(g.nodes.colors[i], None)
    ensures var tokens := Tokens(g.nodes.colors);
      && ToString(g) == Returns(Join(tokens, ',') + ";" + DecimalString(g.steps))
      && RemoveParens(ToString(g).value) == ToString(g).value
      && SplitOnce(ToString(g).value, ';') == Pair(Join(tokens, ','), DecimalString(g.steps))
      && Split(Join(tokens, ','), ',') == tokens
  {
    var tokens := Tokens(g.nodes.colors);
    forall i | 0 <= i < |tokens|
      ensures ',' !in tokens[i] && ';' !in tokens[i] && '(' !in tokens[i] && ')' !in tokens[i]
    {
      WordChars(g.nodes.colors[i]);
    }
    var joined := Join(tokens, ',');
    JoinExcludes(tokens, ',', ';');
    JoinExcludes(tokens, ',', '(');
    JoinExcludes(tokens, ',', ')');
    var d := DecimalString(g.steps);
    DecimalChars(g.steps);
    var s := joined + ";" + d;
    assert '(' !in s && ')' !in s;
    SplitOnceAt(joined, d, ';');
    SplitJoin(tokens, ',');
  }

  /** Each word of an encodable node parses back to a colour that writes the
      same word. */
  lemma TokensRoundTrip(m: Math, colors: seq<Color>)
    requires forall i :: 0 <= i < |colors| ==> Encodable(colors[i], None)
    ensures var r := ParseTokens(m, Tokens(colors));
      && r.Returns? && |r.value| == |colors|
      && forall i :: 0 <= i < |colors| ==> r.value[i].Some? && Eq(r.value[i].value, colors[i])
  {
    var tokens := Tokens(colors);
    forall i | 0 <= i < |colors|
      ensures ColorSolid.Parse(m, tokens[i]).Returns? && ColorSolid.Parse(m, tokens[i]).value.Some?
      ensures Eq(ColorSolid.Parse(m, tokens[i]).value.value, colors[i])
    {
      EncodeDecodeRoundTrip(m, colors[i], None);
    }
  }

  /** `parse(toString())` of a gradient whose nodes are a non-empty list of
      encodable colours gives, in mode "hsi", the same step count and nodes
      equal one by one under ColorSolid's `__eq__`, and therefore the same
      encoding. */
  lemma TextRoundTrip(m: Math, g: Gradient)
    requires g.nodes.Many? && |g.nodes.colors| >= 1
    requires forall i :: 0 <= i < |g.nodes.colors| ==> Encodable(g.nodes.colors[i], None)
    ensures ToString(g).Returns? && Parse(m, ToString(g).value).Returns?
    ensures var h := Parse(m, ToString(g).value).value;
      && h.mode == "hsi" && h.steps == g.steps && Fresh(m, h)
      && h.nodes.Many? && |h.nodes.colors| == |g.nodes.colors|
      && (forall i :: 0 <= i < |g.nodes.colors| ==> Eq(h.nodes.colors[i], g.nodes.colors[i]))
      && ToString(h) == ToString(g)
  {
    var colors := g.nodes.colors;
    ParsedText(m, g);
    TokensRoundTrip(m, colors);
    var items := ParseTokens(m, Tokens(colors)).value;
    assert Validate(ListArg(items)).Some?;
    var h := Parse(m, ToString(g).value).value;
    EqTokens(h.nodes.colors, colors);
  }

  /** Colours equal under `__eq__` write the same node words. */
  lemma EqTokens(ds: seq<Color>, colors: seq<Color>)
    requires |ds| == |colors| && forall i :: 0 <= i < |ds| ==> Eq(ds[i], colors[i])
    ensures Tokens(ds) == Tokens(colors)
  {
  }

  /** Parsing a gradient's encoding hands the parsed node words, and the
      step count, to the constructor. */
  lemma ParsedText(m: Math, g: Gradient)
    requires g.nodes.Many? && |g.nodes.colors| >= 1
    requires forall i :: 0 <= i < |g.nodes.colors| ==> Encodable(g.nodes.colors[i], None)
    ensures ToString(g).Returns? && ParseTokens(m, Tokens(g.nodes.colors)).Returns?
    ensures Parse(m, ToString(g).value) == New(m, ListArg(ParseTokens(m, Tokens(g.nodes.colors)).value), g.steps, "hsi")
  {
    TextShape(g);
    TokensRoundTrip(m, g.nodes.colors);
    DecimalRoundTrip(g.steps);
  }

  /** `parse` drops parentheses first, so a parenthesised word reads as the
      bare one. */
  lemma ParenthesisedText(m: Math, w: string)
    ensures Parse(m, "(" + w + ")") == Parse(m, w)
  {
    Unparenthesise(w);
  }

  /** A word that `parse` turns away without raising makes the whole list
      unacceptable to the nodes setter: the gradient comes back with no
      nodes, no gradient attribute, and encodes as "". */
  lemma RejectedWord(m: Math, words: string, steps: string, i: nat)
    requires ';' !in words && '(' !in words && ')' !in words
    requires '(' !in steps && ')' !in steps && IsDecimal(steps)
    requires i < |Split(words, ',')| && ColorSolid.Parse(m, Split(words, ',')[i]) == Returns(None)
    requires forall j :: 0 <= j < |Split(words, ',')| ==> ColorSolid.Parse(m, Split(words, ',')[j]).Returns?
    ensures Parse(m, words + ";" + steps) == Returns(Gradient(NoNodes, DecimalValue(steps), "hsi", Missing))
    ensures ToString(Parse(m, words + ";" + steps).value) == Returns("")
  {
    var s := words + ";" + steps;
    assert '(' !in s && ')' !in s;
    SplitOnceAt(words, steps, ';');
    var items := ParseTokens(m, Split(words, ',')).value;
    assert items[i] == None;
  }

  /** An empty node list with no steps is accepted and encodes as ";0",
      but that word does not parse back: the empty word before the ';'
      is too short for ColorSolid's `parse`, which raises. */
  lemma EmptyListDoesNotRoundTrip(m: Math)
    ensures New(m, ListArg([]), 0, "hsi").Returns?
    ensures ToString(New(m, ListArg([]), 0, "hsi").value) == Returns(";0")
    ensures Parse(m, ";0") == Raises
  {
    assert Tokens([]) == [];
    assert RemoveParens(";0") == ";0";
    assert SplitOnce(";0", ';') == Pair("", "0");
    assert Split("", ',') == [""];
  }

  /** Changing the mode leaves a once-fresh gradient stale: with an RGB
      first node, HSI mode rebuilds that node from its HSI fields while
      RGBW mode emits it as it is. */
  lemma ModeChangeNotRegenerated(m: Math, a: Color, b: Color)
    requires a.tag != HsiTag
    ensures New(m, ListArg([Some(a), Some(b)]), 1, "hsi").Returns?
    ensures var g := New(m, ListArg([Some(a), Some(b)]), 1, "hsi").value;
      Fresh(m, g) && !Fresh(m, SetMode(g, "rgbw"))
  {
    var g := New(m, ListArg([Some(a), Some(b)]), 1, "hsi").value;
    InterpIndex(m, HsiSpace, [a, b], 1, 0, 0);
    InterpIndex(m, RgbwSpace, [a, b], 1, 0, 0);
    assert g.nodes == Many([a, b]);
  }

  /** With a mode that is neither "hsi" nor "rgbw" the gradient is None,
      whatever the nodes and steps. */
  lemma UnknownModeGeneratesNone(m: Math, arg: NodesArg, steps: nat, mode: string)
    requires mode != "hsi" && mode != "rgbw" && Validate(arg).Some?
    ensures New(m, arg, steps, mode).Returns?
    ensures New(m, arg, steps, mode).value.gradient == Present(None)
  {
  }
}

=== FILE: interp.dfy ===
/** The two gradient interpolators: `linearInterpHsi` walks hue,
    saturation and intensity linearly between consecutive nodes;
    `linearInterpRgbw` walks the channels and rounds them. Both emit
    `steps + 1` colours per consecutive pair and finish with a copy of the
    last node. */
module Interp {
  import opened Basics
  import opened Text
  import opened Convert
  import opened ColorSolid

  /** `lerp(x, x0, x1, y0, y1)`: x is first clamped into [x0, x1], then
      mapped linearly onto [y0, y1]. */
  function Lerp(x: real, x0: real, x1: real, y0: real, y1: real): (y: real)
    requires x0 < x1
    ensures x <= x0 ==> y == y0
    ensures x >= x1 ==> y == y1
    ensures y0 <= y1 ==> y0 <= y <= y1
    ensures y1 <= y0 ==> y1 <= y <= y0
  {
    var xHigh := if x > x1 then x1 else x;
    var xc := if xHigh < x0 then x0 else xHigh;
    var t := (xc - x0) / (x1 - x0);
    DivUnit(xc - x0, x1 - x0);
    LerpBetween(y0, y1, t);
    assert xc == x0 ==> t == 0.0;
    assert xc == x1 ==> t == 1.0;
    y0 + (y1 - y0) * t
  }

  lemma DivUnit(a: real, b: real)
    requires 0.0 <= a <= b && 0.0 < b
    ensures 0.0 <= a / b <= 1.0
  {
    var q := a / b;
    assert q * b == a;
    if q > 1.0 {
      MulMono(b, 1.0, q);
      assert false;
    }
  }

  /** A convex combination of two values lies between them. */
  lemma LerpBetween(y0: real, y1: real, t: real)
    requires 0.0 <= t <= 1.0
    ensures y0 <= y1 ==> y0 <= y0 + (y1 - y0) * t <= y1
    ensures y1 <= y0 ==> y1 <= y0 + (y1 - y0) * t <= y0
  {
    if y0 <= y1 {
      MulNonNeg(y1 - y0, t);
      MulNonNeg(y1 - y0, 1.0 - t);
    } else {
      MulNonNeg(y0 - y1, t);
      MulNonNeg(y0 - y1, 1.0 - t);
    }
  }

  /** The affine blend of y0 and y1 at fraction t. */
  function Blend(y0: real, y1: real, t: real): real {
    y0 + (y1 - y0) * t
  }

  /** On the unit interval, as the interpolators call it, `lerp` is the
      affine blend. */
  lemma LerpUnit(x: real, y0: real, y1: real)
    requires 0.0 <= x <= 1.0
    ensures Lerp(x, 0.0, 1.0, y0, y1) == Blend(y0, y1, x)
  {
  }

  /** The argument a node list arrives as: None, one bare ColorSolid, or a
      list/tuple of them. */
  datatype Nodes = NoNodes | Single(color: Color) | Many(colors: seq<Color>)

  /** Which interpolator runs. */
  datatype Space = HsiSpace | RgbwSpace

  /** `any(color.enableWhite for color in nodes)`. */
  predicate AnyWhite(colors: seq<Color>) {
    exists i :: 0 <= i < |colors| && colors[i].enableWhite
  }

  /** The fraction of the way from one node to the next at step k of
      `steps + 1`. */
  function Position(steps: nat, k: nat): (pos: real)
    ensures 0.0 <= pos
    ensures k <= steps ==> pos < 1.0
  {
    k as real / (steps + 1) as real
  }

  /** The white of an RGBW step: a missing white counts as 0 when the other
      end has one; with both missing the step has none. */
  function MixWhite(wa: Option<Channel>, wb: Option<Channel>, pos: real): (w: Option<Channel>)
  {
    if wa.None? && wb.None? then None
    else Some(Round(Lerp(pos, 0.0, 1.0, WhiteOrZero(wa), WhiteOrZero(wb))) as real)
  }

  /** A channel of an RGBW step: the rounded blend of the two ends. */
  function MixChannel(a: Channel, b: Channel, pos: real): (c: Channel)
  {
    Round(Lerp(pos, 0.0, 1.0, a, b)) as real
  }

  /** The colour at fraction pos of the way from node a to node b in HSI
      mode: built from the blended hue, saturation and intensity (at pos 0
      this rebuilds a from its HSI fields). */
  function HsiStep(m: Math, a: Color, b: Color, pos: real, white: bool): Color {
    FromHsi(m, Lerp(pos, 0.0, 1.0, a.hue, b.hue), Lerp(pos, 0.0, 1.0, a.saturation, b.saturation),
            Lerp(pos, 0.0, 1.0, a.intensity, b.intensity), white)
  }

  /** The colour at fraction pos of the way from node a to node b in RGBW
      mode: built from the rounded blended channels and white. */
  function RgbwStep(m: Math, a: Color, b: Color, pos: real, white: bool): Color {
    FromRgb(m, MixChannel(a.red, b.red, pos), MixChannel(a.green, b.green, pos),
            MixChannel(a.blue, b.blue, pos), MixWhite(White(a), White(b), pos), white)
  }

  /** Colour `first`-or-later of a block: HSI always blends; RGBW emits node
      a itself first. */
  function Step(m: Math, space: Space, a: Color, b: Color, pos: real, first: bool, white: bool): Color {
    match space
    case HsiSpace => HsiStep(m, a, b, pos, white)
    case RgbwSpace => if first then a else RgbwStep(m, a, b, pos, white)
  }

  /** Colour k (0 <= k <= steps) of a block, as a value, so the list
      structure below can be stated once for both interpolators. */
  function StepOf(m: Math, space: Space, steps: nat, white: bool): (Color, Color, nat) -> Color {
    (a: Color, b: Color, k: nat) => Step(m, space, a, b, Position(steps, k), k == 0, white)
  }

  /** The `steps + 1` elements one consecutive pair contributes. */
  function Block<T>(a: T, b: T, steps: nat, step: (T, T, nat) -> T): (block: seq<T>)
    ensures |block| == steps + 1
    ensures forall k :: 0 <= k <= steps ==> block[k] == step(a, b, k)
  {
    seq(steps + 1, (k: int) requires 0 <= k => step(a, b, k))
  }

  /** The blocks of every consecutive pair, in order. */
  function Blocks<T>(nodes: seq<T>, steps: nat, step: (T, T, nat) -> T): (out: seq<T>)
    ensures |out| == if |nodes| == 0 then 0 else (|nodes| - 1) * (steps + 1)
    decreases |nodes|
  {
    if |nodes| < 2 then []
    else
      var rest := Blocks(nodes[1..], steps, step);
      assert |rest| == (|nodes| - 2) * (steps + 1);
      Block(nodes[0], nodes[1], steps, step) + rest
  }

  /** The closing element: a copy of the last node (so with white enabled)
      retagged for the interpolator's representation, nothing recomputed. */
  function Last(m: Math, space: Space, c: Color): (r: Color)
    ensures r.enableWhite
    ensures r.tag == (if space == HsiSpace then HsiTag else RgbwTag)
  {
    Copy(m, c, None).(tag := if space == HsiSpace then HsiTag else RgbwTag)
  }

  /** `linearInterpHsi(nodes, steps)` for `HsiSpace` and
      `linearInterpRgbw(nodes, steps)` for `RgbwSpace`. None, a single
      colour, or steps == 0 come back unchanged; an empty list with steps
      >= 1 fails at `nodes[-1]`; otherwise every consecutive pair
      contributes `steps + 1` colours and a copy of the last node ends the
      list. */
  function LinearInterp(m: Math, space: Space, nodes: Nodes, steps: nat): (r: Outcome<Nodes>)
    ensures nodes.NoNodes? ==> r == Returns(NoNodes)
    ensures nodes.Single? || steps == 0 ==> r == Returns(nodes)
    ensures nodes.Many? && steps >= 1 ==> (r.Raises? <==> |nodes.colors| == 0)
    ensures nodes.Many? && steps >= 1 && |nodes.colors| >= 1 ==>
      var n := |nodes.colors|;
      && r.Returns? && r.value.Many?
      && |r.value.colors| == (n - 1) * (steps + 1) + 1
      && r.value.colors[|r.value.colors| - 1] == Last(m, space, nodes.colors[n - 1])
  {
    match nodes
    case NoNodes => Returns(NoNodes)
    case Single(_) => Returns(nodes)
    case Many(colors) =>
      if steps == 0 then Returns(nodes)
      else if |colors| == 0 then Raises
      else
        var step := StepOf(m, space, steps, AnyWhite(colors));
        Returns(Many(Blocks(colors, steps, step) + [Last(m, space, colors[|colors| - 1])]))
  }

  /** Element p * (steps + 1) + k of the output is step k of the block
      between node p and node p + 1. */
  lemma {:induction false} BlocksIndex<T>(nodes: seq<T>, steps: nat, step: (T, T, nat) -> T, p: nat, k: nat)
    requires p + 1 < |nodes| && k <= steps
    ensures p * (steps + 1) + k < |Blocks(nodes, steps, step)|
    ensures Blocks(nodes, steps, step)[p * (steps + 1) + k] == step(nodes[p], nodes[p + 1], k)
  {
    var out := Blocks(nodes, steps, step);
    var block := Block(nodes[0], nodes[1], steps, step);
    assert out == block + Blocks(nodes[1..], steps, step);
    if p > 0 {
      BlocksIndex(nodes[1..], steps, step, p - 1, k);
      assert p * (steps + 1) + k == (steps + 1) + ((p - 1) * (steps + 1) + k);
      assert nodes[1..][p - 1] == nodes[p] && nodes[1..][p] == nodes[p + 1];
    }
  }

  /** Appending a node appends the block between the old last node and the
      new one. */
  lemma {:induction false} BlocksSnoc<T>(nodes: seq<T>, steps: nat, step: (T, T, nat) -> T, c: T)
    requires |nodes| >= 1
    ensures Blocks(nodes + [c], steps, step)
            == Blocks(nodes, steps, step) + Block(nodes[|nodes| - 1], c, steps, step)
  {
    if |nodes| == 1 {
      assert (nodes + [c])[1..] == [c];
    } else {
      assert (nodes + [c])[1..] == nodes[1..] + [c];
      BlocksSnoc(nodes[1..], steps, step, c);
    }
  }

  /** The element of an interpolated list at p * (steps + 1) + k. */
  lemma InterpIndex(m: Math, space: Space, nodes: seq<Color>, steps: nat, p: nat, k: nat)
    requires steps >= 1 && p + 1 < |nodes| && k <= steps
    ensures var r := LinearInterp(m, space, Many(nodes), steps);
      && p * (steps + 1) + k < |r.value.colors|
      && r.value.colors[p * (steps + 1) + k]
         == Step(m, space, nodes[p], nodes[p + 1], Position(steps, k), k == 0, AnyWhite(nodes))
  {
    var step := StepOf(m, space, steps, AnyWhite(nodes));
    BlocksIndex(nodes, steps, step, p, k);
    var blocks := Blocks(nodes, steps, step);
    var out := blocks + [Last(m, space, nodes[|nodes| - 1])];
    assert out[p * (steps + 1) + k] == blocks[p * (steps + 1) + k];
  }

  /** An HSI step: HSI fields blended linearly in degrees. */
  lemma HsiStepFields(m: Math, a: Color, b: Color, pos: real, white: bool)
    requires 0.0 <= pos <= 1.0
    ensures var c := HsiStep(m, a, b, pos, white);
      && c.hue == Blend(a.hue, b.hue, pos)
      && c.saturation == Blend(a.saturation, b.saturation, pos)
      && c.intensity == Blend(a.intensity, b.intensity, pos)
  {
    LerpUnit(pos, a.hue, b.hue);
    LerpUnit(pos, a.saturation, b.saturation);
    LerpUnit(pos, a.intensity, b.intensity);
  }

  /** In HSI mode element p * (steps + 1) + k is the HSI blend of nodes p
      and p + 1 at fraction k / (steps + 1): built from HSI, in sync, and
      with white enabled exactly when some node enables it. */
  lemma HsiInterpEntries(m: Math, nodes: seq<Color>, steps: nat, p: nat, k: nat)
    requires steps >= 1 && p + 1 < |nodes| && k <= steps
    ensures var r := LinearInterp(m, HsiSpace, Many(nodes), steps);
      && p * (steps + 1) + k < |r.value.colors|
      && r.value.colors[p * (steps + 1) + k] == HsiStep(m, nodes[p], nodes[p + 1], Position(steps, k), AnyWhite(nodes))
  {
    InterpIndex(m, HsiSpace, nodes, steps, p, k);
  }

  /** HSI blending is linear in degrees with no shortest-arc wrap: the hue
      stays between the two end hues, and the first colour of a block
      has the first node's HSI fields. */
  lemma HsiStepNoWrap(m: Math, a: Color, b: Color, pos: real, white: bool)
    requires 0.0 <= pos <= 1.0
    ensures var c := HsiStep(m, a, b, pos, white);
      && (a.hue <= b.hue ==> a.hue <= c.hue <= b.hue)
      && (b.hue <= a.hue ==> b.hue <= c.hue <= a.hue)
      && (pos == 0.0 ==> c.hue == a.hue && c.saturation == a.saturation && c.intensity == a.intensity)
  {
  }

  /** Rounding a value between two others lands between their rounded
      values. */
  lemma RoundBetweenReals(lo: real, x: real, hi: real)
    requires lo <= x <= hi
    ensures Round(lo) <= Round(x) <= Round(hi)
  {
    RoundMonotone(lo, x);
    RoundMonotone(x, hi);
  }

  /** A rounded channel blend lies between the rounded end values, and at
      the start of a block it is the first end rounded. */
  lemma MixChannelBetween(a: Channel, b: Channel, pos: real)
    requires 0.0 <= pos <= 1.0
    ensures a <= b ==> Round(a) as real <= MixChannel(a, b, pos) <= Round(b) as real
    ensures b <= a ==> Round(b) as real <= MixChannel(a, b, pos) <= Round(a) as real
    ensures pos == 0.0 ==> MixChannel(a, b, pos) == Round(a) as real
  {
    if a <= b {
      RoundBetweenReals(a, Lerp(pos, 0.0, 1.0, a, b), b);
    } else {
      RoundBetweenReals(b, Lerp(pos, 0.0, 1.0, a, b), a);
    }
  }

  /** In RGBW mode each block starts with node p itself; a later colour k
      has each channel equal to the rounded `lerp` of the ends at
      k / (steps + 1); its white follows the same blend with a missing white
      read as 0, and is None when both ends lack one or white is off
      throughout the list. */
  lemma RgbwInterpEntries(m: Math, nodes: seq<Color>, steps: nat, p: nat, k: nat)
    requires steps >= 1 && p + 1 < |nodes| && k <= steps
    ensures var r := LinearInterp(m, RgbwSpace, Many(nodes), steps);
      && p * (steps + 1) + k < |r.value.colors|
      && var c := r.value.colors[p * (steps + 1) + k];
      var a, b := nodes[p], nodes[p + 1];
      var pos := Position(steps, k);
      && (k == 0 ==> c == a)
      && (k > 0 ==>
          && c.enableWhite == AnyWhite(nodes) && Synced(m, c)
          && c.tag == (if AnyWhite(nodes) then RgbwTag else RgbTag)
          && c.red == Round(Lerp(pos, 0.0, 1.0, a.red, b.red)) as real
          && c.green == Round(Lerp(pos, 0.0, 1.0, a.green, b.green)) as real
          && c.blue == Round(Lerp(pos, 0.0, 1.0, a.blue, b.blue)) as real
          && (!AnyWhite(nodes) || (White(a).None? && White(b).None?) ==> White(c).None?)
          && (AnyWhite(nodes) && (White(a).Some? || White(b).Some?) ==>
                White(c) == Some(Round(Lerp(pos, 0.0, 1.0, WhiteOrZero(White(a)), WhiteOrZero(White(b)))) as real)))
  {
    InterpIndex(m, RgbwSpace, nodes, steps, p, k);
  }

  lemma HexByteExamples()
    ensures FormatHex(255, 2) == "ff" && FormatHex(128, 2) == "80" && FormatHex(0, 2) == "00"
  {
    assert Hex(15) == "f";
    assert Hex(255) == "ff";
    assert Hex(8) == "8";
    assert Hex(128) == "80";
  }

  /** The two end nodes of the midpoint example below, in their words. */
  lemma MidpointEnds(m: Math)
    ensures ToString(FromRgb(m, 255.0, 255.0, 0.0, Some(0.0), true), None) == "cffff0000"
    ensures ToString(FromRgb(m, 0.0, 0.0, 0.0, Some(0.0), true), None) == "c00000000"
  {
    HexByteExamples();
    RoundOfInteger(255);
    RoundOfInteger(0);
    RgbWord(FromRgb(m, 255.0, 255.0, 0.0, Some(0.0), true), "cffff0000");
    RgbWord(FromRgb(m, 0.0, 0.0, 0.0, Some(0.0), true), "c00000000");
  }

  /** Half way from 255 to 0 the blend is the tie 127.5, which rounds to
      the even 128; from 0 to 0 it stays 0. */
  lemma MidpointChannels()
    ensures MixChannel(255.0, 0.0, 0.5) == 128.0
    ensures MixChannel(0.0, 0.0, 0.5) == 0.0
    ensures MixWhite(Some(0.0), Some(0.0), 0.5) == Some(0.0)
  {
    LerpUnit(0.5, 255.0, 0.0);
    LerpUnit(0.5, 0.0, 0.0);
    assert Blend(255.0, 0.0, 0.5) == 127.5;
    assert Round(127.5) == 128;
    RoundOfInteger(0);
  }

  /** Blending a full channel to an empty one at the midpoint lands on
      the tie 127.5, which rounds to the even 128 ("80"): the two-node,
      one-step RGBW gradient from cffff0000 to c00000000 passes through
      c80800000. */
  lemma RgbwMidpointRoundsToEven(m: Math)
    ensures var a := FromRgb(m, 255.0, 255.0, 0.0, Some(0.0), true);
      var b := FromRgb(m, 0.0, 0.0, 0.0, Some(0.0), true);
      var r := LinearInterp(m, RgbwSpace, Many([a, b]), 1);
      && ToString(a, None) == "cffff0000" && ToString(b, None) == "c00000000"
      && |r.value.colors| == 3
      && ToString(r.value.colors[1], None) == "c80800000"
  {
    var a := FromRgb(m, 255.0, 255.0, 0.0, Some(0.0), true);
    var b := FromRgb(m, 0.0, 0.0, 0.0, Some(0.0), true);
    MidpointEnds(m);
    assert AnyWhite([a, b]) by {
      assert [a, b][0].enableWhite;
    }
    InterpIndex(m, RgbwSpace, [a, b], 1, 0, 1);
    assert Position(1, 1) == 0.5;
    MidpointStep(m, a, b);
  }

  /** The blended colour of the example, as a word. */
  lemma MidpointStep(m: Math, a: Color, b: Color)
    requires a == FromRgb(m, 255.0, 255.0, 0.0, Some(0.0), true)
    requires b == FromRgb(m, 0.0, 0.0, 0.0, Some(0.0), true)
    ensures ToString(RgbwStep(m, a, b, 0.5, true), None) == "c80800000"
  {
    var c := RgbwStep(m, a, b, 0.5, true);
    MidpointChannels();
    assert c.red == 128.0 && c.green == 128.0 && c.blue == 0.0 && White(c) == Some(0.0);
    HexByteExamples();
    RoundOfInteger(128);
    RoundOfInteger(0);
    RgbWord(c, "c80800000");
  }

  /** `any(color.enableWhite for color in nodes)` as a loop. */
  method AnyWhiteLoop(colors: seq<Color>) returns (white: bool)
    ensures white == AnyWhite(colors)
  {
    white := false;
    for j := 0 to |colors|
      invariant white <==> exists i :: 0 <= i < j && colors[i].enableWhite
    {
      white := white || colors[j].enableWhite;
    }
  }

  /** The HSI inner loop: the colours for idx in 1..steps+1, at positions
      (idx - 1) / (steps + 1). */
  method HsiBlockLoop<T>(cur: T, next: T, steps: nat, step: (T, T, nat) -> T) returns (out: seq<T>)
    ensures out == Block(cur, next, steps, step)
  {
    out := [];
    for idx := 1 to steps + 2
      invariant out == Block(cur, next, steps, step)[..idx - 1]
    {
      out := out + [step(cur, next, idx - 1)];
    }
  }

  /** The RGBW inner loop: the current node, then the colours for idx in
      0..steps-1, at positions (idx + 1) / (steps + 1). */
  method RgbwBlockLoop<T>(cur: T, next: T, steps: nat, step: (T, T, nat) -> T) returns (out: seq<T>)
    requires step(cur, next, 0) == cur
    ensures out == Block(cur, next, steps, step)
  {
    out := [cur];
    for idx := 0 to steps
      invariant out == Block(cur, next, steps, step)[..idx + 1]
    {
      out := out + [step(cur, next, idx + 1)];
    }
  }

  /** The Python loops: for each consecutive pair one inner loop, then the
      retagged copy of the last node. */
  method LinearInterpLoop(m: Math, space: Space, nodes: Nodes, steps: nat) returns (r: Outcome<Nodes>)
    ensures r == LinearInterp(m, space, nodes, steps)
  {
    if nodes.NoNodes? {
      return Returns(NoNodes);
    } else if nodes.Single? || steps == 0 {
      return Returns(nodes);
    }
    var colors := nodes.colors;
    if |colors| == 0 {
      return Raises;
    }
    var white := AnyWhiteLoop(colors);
    var step := StepOf(m, space, steps, white);
    var out: seq<Color> := [];
    var i := 0;
    while i + 1 < |colors|
      invariant 0 <= i < |colors|
      invariant out == Blocks(colors[..i + 1], steps, step)
    {
      var cur, next := colors[i], colors[i + 1];
      var block;
      if space == HsiSpace {
        block := HsiBlockLoop(cur, next, steps, step);
      } else {
        assert step(cur, next, 0) == Step(m, RgbwSpace, cur, next, Position(steps, 0), true, white);
        block := RgbwBlockLoop(cur, next, steps, step);
      }
      BlocksSnoc(colors[..i + 1], steps, step, next);
      assert colors[..i + 2] == colors[..i + 1] + [next];
      out := out + block;
      i := i + 1;
    }
    assert colors[..i + 1] == colors;
    r := Returns(Many(out + [Last(m, space, colors[|colors| - 1])]));
  }
}

=== FILE: text.dfy ===
/** The string handling the descriptor words rely on: hex fields as
    `int(s, 16)` reads them and `format(n, "0<w>x")` writes them, decimal
    step counts, ASCII lower-casing, and `str.split`/`str.join`. */
module Text {

  predicate IsHexDigit(ch: char) {
    ('0' <= ch <= '9') || ('a' <= ch <= 'f') || ('A' <= ch <= 'F')
  }

  predicate IsLowerHexDigit(ch: char) {
    ('0' <= ch <= '9') || ('a' <= ch <= 'f')
  }

  predicate AllHex(s: string) {
    forall i :: 0 <= i < |s| ==> IsHexDigit(s[i])
  }

  predicate AllLowerHex(s: string) {
    forall i :: 0 <= i < |s| ==> IsLowerHexDigit(s[i])
  }

  function DigitValue(ch: char): (v: nat)
    requires IsHexDigit(ch)
    ensures v < 16
  {
    if '0' <= ch <= '9' then ch as int - '0' as int
    else if 'a' <= ch <= 'f' then ch as int - 'a' as int + 10
    else ch as int - 'A' as int + 10
  }

  /** The lower-case digit `format` writes for a value below 16. */
  function HexDigit(v: nat): (ch: char)
    requires v < 16
    ensures IsLowerHexDigit(ch) && DigitValue(ch) == v
  {
    if v < 10 then ('0' as int + v) as char else ('a' as int + v - 10) as char
  }

  lemma HexDigitOfValue(ch: char)
    requires IsLowerHexDigit(ch)
    ensures HexDigit(DigitValue(ch)) == ch
  {
  }

  function Pow16(w: nat): (p: nat)
    ensures p >= 1
  {
    if w == 0 then 1 else 16 * Pow16(w - 1)
  }

  /** `int(s, 16)` on a string of hex digits, most significant first. */
  function HexValue(s: string): nat
    requires AllHex(s)
  {
    if |s| == 0 then 0 else 16 * HexValue(s[..|s| - 1]) + DigitValue(s[|s| - 1])
  }

  /** The digits of n with no leading zero, as `format(n, "x")` writes them. */
  function Hex(n: nat): (s: string)
    ensures 1 <= |s| && AllLowerHex(s)
  {
    if n < 16 then [HexDigit(n)] else Hex(n / 16) + [HexDigit(n % 16)]
  }

  function Zeros(k: int): (s: string)
    ensures |s| == (if k > 0 then k else 0)
    ensures forall i :: 0 <= i < |s| ==> s[i] == '0'
  {
    if k <= 0 then "" else "0" + Zeros(k - 1)
  }

  /** `format(n, "0<width>x")`: the sign, then zeros up to the width, then
      the digits; a number too wide for the field is written in full. */
  function FormatHex(n: int, width: nat): string {
    if n >= 0 then Zeros(width - |Hex(n)|) + Hex(n)
    else "-" + Zeros(width - 1 - |Hex(-n)|) + Hex(-n)
  }

  /** The low w hex digits of n, most significant first. */
  function HexFixed(n: nat, w: nat): (s: string)
    ensures |s| == w && AllLowerHex(s)
  {
    if w == 0 then "" else HexFixed(n / 16, w - 1) + [HexDigit(n % 16)]
  }

  lemma {:induction false} HexValueBound(s: string)
    requires AllHex(s)
    ensures HexValue(s) < Pow16(|s|)
  {
    if |s| > 0 {
      HexValueBound(s[..|s| - 1]);
    }
  }

  lemma {:induction false} HexFixedOfZero(k: nat)
    ensures HexFixed(0, k) == Zeros(k)
  {
    if k > 0 {
      HexFixedOfZero(k - 1);
    }
  }

  /** Reading back w fixed-width digits gives the number. */
  lemma {:induction false} HexValueOfFixed(n: nat, w: nat)
    requires n < Pow16(w)
    ensures HexValue(HexFixed(n, w)) == n
  {
    if w > 0 {
      var s := HexFixed(n, w);
      assert s[..|s| - 1] == HexFixed(n / 16, w - 1);
      HexValueOfFixed(n / 16, w - 1);
    }
  }

  /** Writing the value of w lower-case digits back in w digits gives the
      same digits. */
  lemma {:induction false} FixedOfHexValue(s: string)
    requires AllLowerHex(s)
    ensures AllHex(s) && HexFixed(HexValue(s), |s|) == s
  {
    if |s| > 0 {
      var p := s[..|s| - 1];
      FixedOfHexValue(p);
      var v := HexValue(s);
      assert v / 16 == HexValue(p) && v % 16 == DigitValue(s[|s| - 1]);
      HexDigitOfValue(s[|s| - 1]);
      assert s == p + [s[|s| - 1]];
    }
  }

  /** For a number that fits, the padded minimal digits are the
      fixed-width digits. */
  lemma {:induction false} FormatHexFixed(n: nat, w: nat)
    requires 1 <= w && n < Pow16(w)
    ensures FormatHex(n, w) == HexFixed(n, w)
  {
    if n < 16 {
      HexFixedOfZero(w - 1);
    } else {
      FormatHexFixed(n / 16, w - 1);
    }
  }

  /** `format(n, "0<w>x")` followed by `int(_, 16)` is the identity on
      numbers that fit in w digits. */
  lemma FormatHexRoundTrip(n: int, w: nat)
    requires 1 <= w && 0 <= n < Pow16(w)
    ensures |FormatHex(n, w)| == w && AllLowerHex(FormatHex(n, w))
    ensures AllHex(FormatHex(n, w)) && HexValue(FormatHex(n, w)) == n
  {
    FormatHexFixed(n, w);
    HexValueOfFixed(n, w);
  }

  /** Lower-case digits read with `int(_, 16)` and written back with
      `format` come out unchanged. */
  lemma HexValueRoundTrip(s: string)
    requires 1 <= |s| && AllLowerHex(s)
    ensures AllHex(s) && FormatHex(HexValue(s), |s|) == s
  {
    FixedOfHexValue(s);
    HexValueBound(s);
    FormatHexFixed(HexValue(s), |s|);
  }

  predicate IsDecimalDigit(ch: char) {
    '0' <= ch <= '9'
  }

  /** What `int(s)` accepts in this model: one or more decimal digits. */
  predicate IsDecimal(s: string) {
    1 <= |s| && forall i :: 0 <= i < |s| ==> IsDecimalDigit(s[i])
  }

  function DecimalValue(s: string): nat
    requires forall i :: 0 <= i < |s| ==> IsDecimalDigit(s[i])
  {
    if |s| == 0 then 0
    else
      assert IsDecimalDigit(s[|s| - 1]);
      10 * DecimalValue(s[..|s| - 1]) + (s[|s| - 1] as int - '0' as int)
  }

  /** `str(n)` for a non-negative integer. */
  function DecimalString(n: nat): (s: string)
    ensures IsDecimal(s)
  {
    if n < 10 then [('0' as int + n) as char]
    else DecimalString(n / 10) + [('0' as int + n % 10) as char]
  }

  lemma {:induction false} DecimalRoundTrip(n: nat)
    ensures DecimalValue(DecimalString(n)) == n
  {
    if n >= 10 {
      var s := DecimalString(n);
      assert s[..|s| - 1] == DecimalString(n / 10);
      DecimalRoundTrip(n / 10);
    }
  }

  /** Python's `str.lower` on one ASCII character. */
  function Lower(ch: char): (l: char)
    ensures 'A' <= ch <= 'Z' ==> l as int == ch as int + 32
    ensures !('A' <= ch <= 'Z') ==> l == ch
  {
    if 'A' <= ch <= 'Z' then (ch as int + 32) as char else ch
  }

  /** `s.split(sep)`: the pieces between separators, always at least one. */
  function Split(s: string, sep: char): (parts: seq<string>)
    ensures |parts| >= 1
  {
    if |s| == 0 then [""]
    else
      var rest := Split(s[1..], sep);
      if s[0] == sep then [""] + rest else [[s[0]] + rest[0]] + rest[1..]
  }

  /** `sep.join(parts)`. */
  function Join(parts: seq<string>, sep: char): string {
    if |parts| == 0 then ""
    else if |parts| == 1 then parts[0]
    else parts[0] + [sep] + Join(parts[1..], sep)
  }

  /** `s.split(sep, 1)` unpacked into two names: the text before the first
      separator and the text after it; Python raises when there is none. */
  function SplitOnce(s: string, sep: char): (r: Halves)
    ensures r.Pair? <==> sep in s
    ensures r.Pair? ==> s == r.before + [sep] + r.after && sep !in r.before
  {
    if |s| == 0 then NoSeparator
    else if s[0] == sep then Pair("", s[1..])
    else match SplitOnce(s[1..], sep)
      case NoSeparator => NoSeparator
      case Pair(b, a) => Pair([s[0]] + b, a)
  }

  datatype Halves = NoSeparator | Pair(before: string, after: string)

  /** `s.replace("(", "").replace(")", "")`. */
  function RemoveParens(s: string): (t: string)
    ensures '(' !in t && ')' !in t
    ensures '(' !in s && ')' !in s ==> t == s
  {
    if |s| == 0 then ""
    else (if s[0] == '(' || s[0] == ')' then "" else [s[0]]) + RemoveParens(s[1..])
  }

  /** Removing parentheses works character by character, so it
      distributes over concatenation and keeps the other characters in
      order. */
  lemma {:induction false} RemoveParensConcat(a: string, b: string)
    ensures RemoveParens(a + b) == RemoveParens(a) + RemoveParens(b)
    decreases |a|
  {
    if |a| == 0 {
      assert a + b == b;
    } else {
      var head := if a[0] == '(' || a[0] == ')' then "" else [a[0]];
      assert (a + b)[0] == a[0] && (a + b)[1..] == a[1..] + b;
      RemoveParensConcat(a[1..], b);
      assert RemoveParens(a + b) == head + (RemoveParens(a[1..]) + RemoveParens(b));
    }
  }

  /** Enclosing text in parentheses does not change what is left. */
  lemma Unparenthesise(w: string)
    ensures RemoveParens("(" + w + ")") == RemoveParens(w)
  {
    RemoveParensConcat("(" + w, ")");
    RemoveParensConcat("(", w);
    ParenRemoved('(');
    ParenRemoved(')');
  }

  lemma ParenRemoved(c: char)
    requires c == '(' || c == ')'
    ensures RemoveParens([c]) == ""
  {
    assert [c][1..] == [];
  }

  lemma {:induction false} SplitPrefix(t: string, u: string, sep: char)
    requires sep !in t
    ensures Split(t + u, sep) == [t + Split(u, sep)[0]] + Split(u, sep)[1..]
  {
    if |t| > 0 {
      var su := Split(u, sep);
      assert (t + u)[0] == t[0] && (t + u)[1..] == t[1..] + u;
      SplitPrefix(t[1..], u, sep);
      var rest := Split(t[1..] + u, sep);
      assert rest == [t[1..] + su[0]] + su[1..];
      assert Split(t + u, sep) == [[t[0]] + rest[0]] + rest[1..];
      assert [t[0]] + (t[1..] + su[0]) == t + su[0];
    } else {
      assert t + u == u;
      assert Split(u, sep) == [Split(u, sep)[0]] + Split(u, sep)[1..];
      assert t + Split(u, sep)[0] == Split(u, sep)[0];
    }
  }

  /** Splitting a join at its separator gives the parts back, as long as
      no part contains the separator. */
  lemma {:induction false} SplitJoin(parts: seq<string>, sep: char)
    requires |parts| >= 1
    requires forall i :: 0 <= i < |parts| ==> sep !in parts[i]
    ensures Split(Join(parts, sep), sep) == parts
  {
    if |parts| == 1 {
      SplitPrefix(parts[0], "", sep);
      assert parts[0] + "" == parts[0];
      assert Split("", sep) == [""];
      assert Split(parts[0], sep) == [parts[0] + ""];
    } else {
      var rest := Join(parts[1..], sep);
      SplitJoin(parts[1..], sep);
      SplitPrefix(parts[0], [sep] + rest, sep);
      assert parts[0] + [sep] + rest == parts[0] + ([sep] + rest);
      assert ([sep] + rest)[1..] == rest;
      assert Split([sep] + rest, sep) == [""] + Split(rest, sep);
      assert parts[0] + "" == parts[0];
      assert parts == [parts[0]] + parts[1..];
    }
  }

  lemma {:induction false} JoinExcludes(parts: seq<string>, sep: char, ch: char)
    requires ch != sep
    requires forall i :: 0 <= i < |parts| ==> ch !in parts[i]
    ensures ch !in Join(parts, sep)
  {
    if |parts| > 1 {
      JoinExcludes(parts[1..], sep, ch);
    }
  }
}
